=== FILE: README.md ===
# Daily sales dashboard: a Dafny model of its query and cache core

The dashboard answers day-level and historical questions about a retail data set: the
rollup of one day (orders, revenue, units sold), the trend of the last seven days,
recency/frequency/monetary (RFM) features per customer, revenue anomalies against a forecast
band, and revenue per country. A loader script cleans the raw CSV file and appends it to a
staging table.

The project models the logic of these parts and proves properties of it.

- `calendar.dfy` (`Calendar`): dates as Python's `datetime.date` holds them. It covers their
  `isoformat()` text and their `toordinal()` day number. Formatting and parsing are inverse,
  and day numbers order dates chronologically.
- `cache.dfy` (`DailySalesCache`): the read-through, date-keyed cache `get_daily_sales` in
  its two variants.
  - The cache is a map from key to entry (payload and expiry), and the clock is a parameter.
  - The per-day database query is an arbitrary function from date to rows.
  - Each call returns the rows it serves, the cache it leaves, and how many queries it issued.
- `rollups.dfy` (`Rollups`): the `mv_daily_sales` relation, `ORDER BY sale_date`, and the
  7-day trend window `BETWEEN dt - 6 AND dt`.
- `relational.dfy` (`Relational`): SQL `SUM` and `MAX` over a column with NULLs.
- `rfm.dfy` (`Rfm`): the inner join of orders with order items, the per-customer group-by,
  the aggregates, and `dropna()`. Recency is measured from 2011-12-09 (app.py) or from the
  selected date (app_v2.py).
- `geography.dfy` (`Geography`): the `can_do_geography` gate and the per-country revenue sum.
- `anomaly.dfy` (`Anomaly`): the left join of the date-ordered history with a forecast band,
  the anomaly flag, the flagged rows, and the "forecast unavailable" outcome.
- `staging.dfy` (`Staging`): the row filter, column lower-casing, and the appended and
  reported rows of the loader.
- `seqs.dfy` and `wrappers.dfy`: the generic order-preserving filter, projection and
  subsequence relation, and `Option`.

Conventions:

- Dates inside queries are day numbers (`Calendar.ToOrdinal`), so `dt - timedelta(days=6)` is
  `dt - 6` and SQL date comparison is integer comparison.
- Revenue and line totals are integer numbers of cents. The unit price in the staging
  loader is a real number of pounds, as read from the file.
- A SQL NULL or a pandas NaN is `None`, and a comparison with it is false.

app.py caches a per-day result only when it is non-empty (line 44). app_v2.py writes every
result, including an empty one (line 35). `GetDailySalesV1` skips the write and
`GetDailySalesV2` performs it, and lemmas state where the two variants agree and where they
differ. The two files also differ in the RFM reference date. Both run one query, `Compute`,
with the reference as a parameter. `RfmV2`'s contract states how its table relates to
`RfmV1`'s.

## Model

| member | source | states |
|---|---|---|
| Calendar.IsoFormat | app.py:32 | a date's ISO text is ten characters: four year digits, a dash, two month digits, a dash, two day digits |
| Calendar.ParseIso | app.py:32 | any text the parser accepts is exactly the ISO text of the date it returns |
| Calendar.ParseIsoFormat | app.py:32 | parsing a date's ISO text gives back the date, so the text determines the date |
| Calendar.IsoFormatInjective | app.py:32 | two dates with the same ISO text are the same date |
| Calendar.OrdinalOrder | app.py:94-99 | day numbers order dates chronologically, and equal day numbers mean equal dates, so `BETWEEN` on dates can be read on day numbers |
| Calendar.OrdinalSuccessor | app.py:94 | the date after any date (below 9999-12-31) is valid and has the next day number, so a shift by six days (`timedelta(days=6)`) is a difference of six in day numbers |
| DailySalesCache.Key | app.py:32 | the cache key is `daily_sales:` followed by the ten-character ISO text of the date |
| DailySalesCache.KeyInjective | app.py:32 | two dates share a cache key if and only if they are the same date, so one day's rows never answer for another's |
| DailySalesCache.GetDailySalesV1 | app.py:28-46 | no date gives empty rows, with no query and no cache change. A live entry is served with no query, and the cache (including the entry's expiry) is left unchanged. A miss issues one query and returns the database rows. On a miss, non-empty rows are stored under the key with expiry `now + 3600` and every other key is left as it was; empty rows leave the cache unchanged |
| DailySalesCache.GetDailySalesV2 | app_v2.py:24-36 | a live entry is served with no query and the cache unchanged. A miss issues one query, returns the database rows, and stores them, even when empty, under the key with expiry `now + 3600`; every other key is left as it was |
| DailySalesCache.ReadThroughV1 | app.py:28-46 | over a cache whose entries all hold what the database answers for their key's date, the call returns exactly the database rows and keeps that property |
| DailySalesCache.ReadThroughV2 | app_v2.py:24-36 | the same transparency for the variant that always writes |
| DailySalesCache.NoEmptyEntriesPreservedV1 | app.py:44-45 | app.py never puts an empty payload into the cache |
| DailySalesCache.EmptyResultNotCachedV1 | app.py:44 | after a miss that finds no rows, the cache holds no live entry for that key, then or later |
| DailySalesCache.TtlBoundedPreserved | app.py:45 | in both variants, no entry outlives one TTL (3600 s) from the latest call |
| DailySalesCache.VariantsAgreeOnNonEmptyDay | app_v2.py:34-35 | when the day has rows, the two variants return the same rows, leave the same cache, and issue the same number of queries |
| DailySalesCache.VariantsDifferOnEmptyDay | app_v2.py:35 | on a miss for a day without rows, app.py leaves the cache as it was, while app_v2.py adds an empty entry for one TTL |
| DailySalesCache.TwiceWithinTtlV1 | app.py:33-46 | two calls within one TTL both return the database rows; when the day has rows, at most one of the two calls queries |
| DailySalesCache.TwiceWithinTtlV2 | app_v2.py:26-36 | two calls within one TTL both return the database rows, and at most one of them queries |
| DailySalesCache.EmptyDayRetriedV1 | app.py:44-46 | in app.py, a day that had no rows is queried again on the next call, and the call returns whatever the database holds then |
| DailySalesCache.EmptyDayCachedV2 | app_v2.py:26-35 | in app_v2.py, a day that had no rows is served empty from the cache for one TTL with no query, even if the database has rows by then |
| DailySalesCache.ExpiredEntryRequeried | app.py:45 | once one TTL has passed since a write, the next call in either variant queries again and returns the database's current rows |
| Rollups.SortByDate | app.py:139 | `ORDER BY sale_date` returns the same rows (as a multiset) in ascending date order |
| Rollups.TrendWindow | app_v2.py:62-68 | the trend query returns, in ascending date order, every row dated `dt - 6` through `dt`, each as often as in the relation, and no other row |
| Rollups.TrendSection | app.py:94-102 | without a selected date there is no trend query; with one, the result is ordered by date and holds exactly the relation's rows inside the window |
| Rollups.TrendWindowAtMostSeven | app.py:94-100 | when no two rows share a date, the trend window has at most seven rows |
| Relational.SqlSum | app.py:120 | `SUM` is NULL exactly when every value in the column is NULL; otherwise it is the total of the non-NULL values |
| Relational.SqlMax | app.py:117 | `MAX` is NULL exactly when every value is NULL; otherwise it is one of the non-NULL values and no non-NULL value exceeds it |
| Rfm.Join | app.py:121-123 | a joined row pairs an order and an item of the base relations exactly when their order ids are equal |
| Rfm.AggregateCharacterised | app.py:113-127 | a group's row survives `dropna()` exactly when the group has a dated order and a priced item. Frequency is the number of distinct order ids, at least 1. Recency is measured to a date the group holds, and no order of the group is later than that date |
| Rfm.ComputeDomain | app.py:112-127 | a customer has an RFM row exactly when some order of theirs joins an item and has an invoice date, and some order of theirs joins an item with a line total |
| Rfm.ComputeRow | app.py:113-124 | a customer's frequency is the number of distinct ids of their orders that have an item, at least 1. Reference minus recency is the invoice date of one of their joined orders and is not earlier than any of them |
| Rfm.ComputeMonetary | app.py:120-124 | a customer's monetary value equals an independent order-by-order total of the line totals of their orders |
| Rfm.ComputeCharacterised | app.py:112-127 | the RFM query followed by `dropna()`, read against the base relations: a customer has a row exactly when they have a dated joined order and a priced joined item. The row's frequency is their number of distinct joined orders (at least 1), its recency is measured to their latest invoice date, and its monetary value is their spend order by order |
| Rfm.RfmV1 | app.py:112-127 | app.py's table: the rows of the characterisation above, measured from 2011-12-09 |
| Rfm.RfmV2 | app_v2.py:78-89 | app_v2.py's table has the same rows measured from the selected date. Compared with app.py's table it has the same customers, frequencies and monetary values, and each recency is larger by the number of days from 2011-12-09 to the selected date |
| Rfm.ReferenceShiftsRecency | app_v2.py:81 | changing the reference date keeps the same customers, frequencies and monetary values, and shifts every recency by the change |
| Rfm.NegativeRecencyIffLaterOrder | app_v2.py:81-86 | a customer's recency is negative exactly when they have a joined order dated after the reference; app_v2.py does not filter by date, so this occurs there |
| Rfm.WorkedExample | app.py:112-127 | one customer with orders of 10 on day 1 and 20 on day 5, at reference day 10, gets recency 5, frequency 2 and monetary 30, and there is no other row |
| Geography.CanDoGeographyIff | app.py:67-72 | the gate is open exactly when some customer row has a non-NULL country |
| Geography.GeoLines | app.py:176-179 | the three-way join pairs an order line with a customer exactly when the customer ids are equal and not NULL and the customer's country is not NULL |
| Geography.Geography | app_v2.py:133-140 | the per-country result is absent exactly when no customer has a country; when present it is the per-country sum |
| Geography.CountrySalesValue | app_v2.py:134-138 | each country's revenue equals an independent total: the NULL-aware sum, over that country's customer rows with an id, of each customer's spend order by order. A country outside the result has no such spend |
| Geography.CountrySalesDomain | app_v2.py:134-136 | a country appears in the result exactly when some item of some order belongs to a customer of that country |
| Geography.GateOnlySkipsEmptyResult | app_v2.py:133-140 | every country in the result passes the gate's count, so when the gate is closed the skipped query would have returned nothing |
| Anomaly.LeftJoin | app.py:148-152 | the plot frame has exactly the history rows, in history order. Each point carries the forecast's band for its date, or none when there is none, and is flagged exactly when its revenue lies outside that band |
| Anomaly.DetectAnomalies | app.py:139-170 | the result is "unavailable" exactly when the forecasting library is missing or the history is empty. Otherwise the plot rows are the history rows in ascending date order, each carrying the forecast's band for its date and flagged exactly when its revenue lies outside it |
| Anomaly.FlagIffOutsideBand | app.py:149-152 | a row is flagged exactly when the forecast has a band for its date and its revenue lies outside `[lower, upper]` |
| Anomaly.FutureDatesNeverAppear | app.py:146-148 | a forecast date with no history row never appears in the plot, so it is never flagged |
| Anomaly.AnomaliesAreFlaggedRows | app.py:165 | the anomaly list is an order-preserving subsequence of the plot and holds every flagged row as often as the plot does, and nothing else |
| Anomaly.SpikeExample | app_v2.py:105-124 | with revenue 100, 1000, 100 on three days and a band of [50, 150], only the spike is flagged |
| Staging.Clean | load_staging.py:19-20 | every kept row has a customer id, a quantity above zero and a unit price above zero |
| Staging.CleanIsKeepFilter | load_staging.py:19-20 | a row is kept exactly when all three conditions hold. Kept rows keep their input order and multiplicity |
| Staging.CleanIdempotent | load_staging.py:19-20 | cleaning rows that are already clean changes nothing |
| Staging.Lower | load_staging.py:22 | lower-casing keeps the length, leaves no upper-case letter, changes no other character, and maps each upper-case letter to its lower-case letter |
| Staging.LowerColumnsIdempotent | load_staging.py:22 | lower-casing the column names twice is the same as once |
| Staging.StagingColumnNames | load_staging.py:22 | the CSV header becomes `invoiceno, stockcode, description, quantity, invoicedate, unitprice, customerid, country` |
| Staging.LoadStaging | load_staging.py:25-27 | the append keeps the existing table as a prefix, every appended row meets the cleaning conditions, and the reported count is the number of appended rows |
| Staging.LoadAppendsCleanedRows | load_staging.py:25-27 | the appended rows are exactly the filter of the CSV rows by the cleaning conditions, and the reported count is their number |

## Left out

- Page rendering (Streamlit widgets, messages, tables, Altair charts): display only.
- The Redis and PostgreSQL connections and their configuration are I/O. The cache is an
  in-memory map, and each query is a function or a sequence given as a parameter.
- Fitting the forecasting model and predicting with it is floating-point numerics in a
  foreign library. The band per date is an input map. `lower <= upper` is not assumed, and
  nothing relies on it.
- pandas JSON serialisation of a cached frame: the payload is stored and served as the rows
  themselves.
- CSV parsing, `to_datetime` and the timestamp and interval arithmetic of `DATE_PART`: dates
  are day numbers, and recency is a difference of day numbers.
- Anomaly.DetectAnomalies returns a forecast for a one-row history. There app.py (line 145)
  and app_v2.py (line 108) call the forecasting library's fit, which raises an error on fewer
  than two rows, and the page stops before the plot. The model has no outcome for that error,
  because it lies inside the library, which is not part of this model.
- Concurrent sessions racing on one cache key, and operation timeouts: the model is
  sequential.
- Removal of expired entries by Redis: an expired entry stays in the map but is never
  served, which is what a reader observes.
- The query for the earliest and latest sale date (app.py:49-54, app_v2.py:39-40): it bounds
  the date picker, which is not modelled.
- The early stop in app.py: when `mv_daily_sales` is empty, app.py stops the page at line 60,
  before the per-day lookup, the trend, RFM, forecast and geography sections run. The model
  does not represent that stop; each section is modelled as if it runs.
- The all-time chart (app.py:187-189): display only.
- Setting `sale_date` to a date type after the per-day lookup, and to a timestamp index in
  the trend and forecast frames: a change of representation only.
- DailySalesCache.GetDailySalesV2 takes a date, not an optional date. app_v2.py has no
  `None` guard, and a `None` there raises an error, which is not modelled.
- Staging.Lower lower-cases the ASCII letters only. The CSV header is ASCII, and Unicode case
  mapping is not modelled.
- Column-name differences between the two variants' SQL (`customer_id` against `customerid`,
  `ON` against `USING`) are not modelled: both name the same join.
- Dates are limited to years 1 through 9999, as in Python. Shifting a date out of that range
  raises an error in Python. Day numbers are not bounded, so that error is not modelled.

=== FILE: anomaly.dfy ===
/** Anomaly flagging against a forecast band. The band per date is an input (the model that
    produces it is not part of this model); the history is `mv_daily_sales` ordered by date. */
module Anomaly {
  import opened Wrappers
  import opened Seqs
  import opened Calendar
  import opened Rollups

  /** `yhat`, `yhat_lower` and `yhat_upper` of one forecast date, in cents, like revenue. */
  datatype Band = Band(yhat: real, lower: real, upper: real)

  /** One row of the plot frame: a history row, the band joined to it (none when the forecast
      has no row for that date, NaN in pandas) and its anomaly flag. */
  datatype PlotPoint = PlotPoint(row: DailyRollup, band: Option<Band>, anomaly: bool)

  datatype ForecastResult =
    | Unavailable
    | Forecast(plot: seq<PlotPoint>, anomalies: seq<PlotPoint>)

  /** `revenue > yhat_upper | revenue < yhat_lower`; a comparison with NaN is false. */
  predicate OutsideBand(revenue: int, band: Option<Band>) {
    band.Some? && (revenue as real > band.value.upper || (revenue as real) < band.value.lower)
  }

  /** A plot point carries the band the forecast has for its date (none when it has none),
      and is flagged exactly when its revenue lies outside that band. */
  predicate JoinedBand(p: PlotPoint, forecast: map<Day, Band>) {
    && p.band == (if p.row.saleDate in forecast then Some(forecast[p.row.saleDate]) else None)
    && (p.anomaly <==> OutsideBand(p.row.revenue, p.band))
  }

  function PointFor(r: DailyRollup, forecast: map<Day, Band>): PlotPoint {
    var band := if r.saleDate in forecast then Some(forecast[r.saleDate]) else None;
    PlotPoint(r, band, OutsideBand(r.revenue, band))
  }

  /** `full_df.join(forecast[...], how='left')` with the flag column added. */
  function LeftJoin(history: seq<DailyRollup>, forecast: map<Day, Band>): (plot: seq<PlotPoint>)
    ensures Project((p: PlotPoint) => p.row, plot) == history
    ensures forall k :: 0 <= k < |plot| ==> JoinedBand(plot[k], forecast)
  {
    var plot := Project((r: DailyRollup) => PointFor(r, forecast), history);
    assert Project((p: PlotPoint) => p.row, plot) == history;
    plot
  }

  predicate IsAnomaly(p: PlotPoint) {
    p.anomaly
  }

  /** The forecast section: unavailable without the forecasting library or without history;
      otherwise the plot frame over the history ordered by date, and its flagged rows. */
  function DetectAnomalies(hasProphet: bool, rel: seq<DailyRollup>, forecast: map<Day, Band>): (r: ForecastResult)
    ensures r.Unavailable? <==> !hasProphet || rel == []
    ensures r.Forecast? ==> |r.plot| == |rel| && SortedByDate(Project((p: PlotPoint) => p.row, r.plot))
    ensures r.Forecast? ==> multiset(Project((p: PlotPoint) => p.row, r.plot)) == multiset(rel)
    ensures r.Forecast? ==> forall k :: 0 <= k < |r.plot| ==> JoinedBand(r.plot[k], forecast)
  {
    var history := SortByDate(rel);
    if hasProphet && history != [] then
      var plot := LeftJoin(history, forecast);
      Forecast(plot, Filter(IsAnomaly, plot))
    else
      assert |history| == |multiset(history)| == |multiset(rel)| == |rel|;
      Unavailable
  }

  /** A row is flagged exactly when a band was joined to its date and its revenue lies
      outside the closed interval `[lower, upper]`. */
  lemma FlagIffOutsideBand(history: seq<DailyRollup>, forecast: map<Day, Band>, k: int)
    requires 0 <= k < |history|
    ensures var p := LeftJoin(history, forecast)[k];
      p.anomaly <==>
        history[k].saleDate in forecast &&
        !(forecast[history[k].saleDate].lower <= history[k].revenue as real <= forecast[history[k].saleDate].upper)
  {
  }

  /** Forecast dates with no history row never reach the plot frame, so they are never flagged. */
  lemma FutureDatesNeverAppear(hasProphet: bool, rel: seq<DailyRollup>, forecast: map<Day, Band>, d: Day)
    requires d in forecast
    requires forall r :: r in rel ==> r.saleDate != d
    ensures var r := DetectAnomalies(hasProphet, rel, forecast);
      r.Forecast? ==> forall p :: p in r.plot ==> p.row.saleDate != d
  {
    var r := DetectAnomalies(hasProphet, rel, forecast);
    if r.Forecast? {
      var rows := Project((p: PlotPoint) => p.row, r.plot);
      forall p | p in r.plot ensures p.row.saleDate != d {
        var k :| 0 <= k < |r.plot| && r.plot[k] == p;
        assert rows[k] in multiset(rel);
      }
    }
  }

  /** The anomaly list holds exactly the flagged plot rows, in plot order, each as often as
      it occurs in the plot. */
  lemma AnomaliesAreFlaggedRows(hasProphet: bool, rel: seq<DailyRollup>, forecast: map<Day, Band>)
    ensures var r := DetectAnomalies(hasProphet, rel, forecast);
      r.Forecast? ==>
        && IsSubsequence(r.anomalies, r.plot)
        && (forall p :: multiset(r.anomalies)[p] == if p.anomaly then multiset(r.plot)[p] else 0)
  {
    var r := DetectAnomalies(hasProphet, rel, forecast);
    if r.Forecast? {
      FilterIsSubsequence(IsAnomaly, r.plot);
      FilterMultiset(IsAnomaly, r.plot);
    }
  }

  // The worked example: revenue 100 on days 1 to 3 except a spike of 1000 on day 2, and a
  // band [50, 150] on those days and on the seven future days 4 to 10.
  const SpikeHistory := [DailyRollup(1, 1, 100, 1), DailyRollup(2, 1, 1000, 1), DailyRollup(3, 1, 100, 1)]

  const FlatBand := Band(100.0, 50.0, 150.0)

  const SpikeBand := map[1 := FlatBand, 2 := FlatBand, 3 := FlatBand, 4 := FlatBand, 5 := FlatBand,
                         6 := FlatBand, 7 := FlatBand, 8 := FlatBand, 9 := FlatBand, 10 := FlatBand]

  lemma SpikePlot()
    ensures LeftJoin(SpikeHistory, SpikeBand)
            == [PlotPoint(SpikeHistory[0], Some(FlatBand), false),
                PlotPoint(SpikeHistory[1], Some(FlatBand), true),
                PlotPoint(SpikeHistory[2], Some(FlatBand), false)]
  {
  }

  lemma SpikeAnomalies()
    ensures Filter(IsAnomaly, LeftJoin(SpikeHistory, SpikeBand)) == [PlotPoint(SpikeHistory[1], Some(FlatBand), true)]
  {
    SpikePlot();
    var plot := LeftJoin(SpikeHistory, SpikeBand);
    assert Filter(IsAnomaly, plot[2..]) == [];
    assert Filter(IsAnomaly, plot[1..]) == [plot[1]];
  }

  /** Only the spike is flagged. */
  lemma SpikeExample()
    ensures var r := DetectAnomalies(true, SpikeHistory, SpikeBand);
      r.Forecast? && r.anomalies == [PlotPoint(SpikeHistory[1], Some(FlatBand), true)]
  {
    SpikeSorted();
    SpikeAnomalies();
    var plot := LeftJoin(SpikeHistory, SpikeBand);
    assert DetectAnomalies(true, SpikeHistory, SpikeBand) == Forecast(plot, Filter(IsAnomaly, plot));
  }

  lemma SpikeSorted()
    ensures SortByDate(SpikeHistory) == SpikeHistory
  {
    assert SortedByDate(SpikeHistory);
    SortedIsFixed(SpikeHistory);
  }

  /** Sorting a sequence that is already ordered by date returns it unchanged. */
  lemma {:induction false} SortedIsFixed(s: seq<DailyRollup>)
    requires SortedByDate(s)
    ensures SortByDate(s) == s
  {
    if s != [] {
      SortedIsFixed(s[1..]);
    }
  }
}

=== FILE: cache.dfy ===
/** The read-through, date-keyed cache in front of the per-day rollup query, in its two
    variants (`get_daily_sales` of app.py and of app_v2.py). The cache is a map from key to
    entry, the clock is an explicit parameter `now` in seconds, and the database lookup
    `SELECT … FROM mv_daily_sales WHERE sale_date = d` is an arbitrary function of the date.
    Each call yields the rows it returns, the cache as it leaves it, and the number of
    database queries it issued. */
module DailySalesCache {
  import opened Wrappers
  import opened Calendar
  import opened Rollups

  const KeyPrefix := "daily_sales:"

  /** Lifetime of an entry in seconds (`ex=3600`), set when written and never refreshed. */
  const TtlSeconds := 3600

  /** A stored payload and the instant from which it is no longer served. */
  datatype Entry = Entry(payload: seq<DailyRollup>, expiry: int)

  type Store = map<string, Entry>

  /** The per-day rollup query: the rows of `mv_daily_sales` for one date. */
  type Database = IsoDate -> seq<DailyRollup>

  datatype Lookup = Lookup(rows: seq<DailyRollup>, store: Store, queries: nat)

  /** `f"daily_sales:{sale_date.isoformat()}"` */
  function Key(d: IsoDate): (k: string)
    ensures |k| == |KeyPrefix| + 10
    ensures k[..|KeyPrefix|] == KeyPrefix && k[|KeyPrefix|..] == IsoFormat(d)
  {
    KeyPrefix + IsoFormat(d)
  }

  /** The date a key was built from, if it is a key at all. */
  function ParseKey(k: string): (r: Option<IsoDate>)
    ensures r.Some? ==> Key(r.value) == k
  {
    if |k| >= |KeyPrefix| && k[..|KeyPrefix|] == KeyPrefix then
      var d := ParseIso(k[|KeyPrefix|..]);
      assert k == k[..|KeyPrefix|] + k[|KeyPrefix|..];
      d
    else None
  }

  lemma ParseKeyOfKey(d: IsoDate)
    ensures ParseKey(Key(d)) == Some(d)
  {
    ParseIsoFormat(d);
  }

  /** Distinct dates map to distinct keys, so one day's rollup never answers for another. */
  lemma KeyInjective(d1: IsoDate, d2: IsoDate)
    ensures Key(d1) == Key(d2) <==> d1 == d2
  {
    ParseKeyOfKey(d1);
    ParseKeyOfKey(d2);
  }

  /** A GET of key `k` at time `now` finds a value (the entry has not expired). */
  predicate Live(store: Store, k: string, now: int) {
    k in store && now < store[k].expiry
  }

  /** Every key other than `key` is present in both stores or in neither, with the same entry. */
  ghost predicate SameElsewhere(s1: Store, s2: Store, key: string) {
    forall k :: k != key ==> (k in s1 <==> k in s2) && (k in s1 ==> s1[k] == s2[k])
  }

  /** `get_daily_sales` of app.py: no date gives an empty frame and touches nothing; a hit
      returns the stored payload, issues no query and leaves the store as it was (the
      lifetime is not refreshed); a miss queries once and returns the database rows,
      caching them for one TTL under the day's key when there are some and otherwise
      leaving the store as it was. */
  function GetDailySalesV1(store: Store, now: int, date: Option<IsoDate>, db: Database): (r: Lookup)
    ensures date.None? ==> r.rows == [] && r.store == store && r.queries == 0
    ensures date.Some? && Live(store, Key(date.value), now) ==>
              r.rows == store[Key(date.value)].payload && r.store == store && r.queries == 0
    ensures date.Some? && !Live(store, Key(date.value), now) ==>
              r.rows == db(date.value) && r.queries == 1 && SameElsewhere(r.store, store, Key(date.value))
    ensures date.Some? && !Live(store, Key(date.value), now) && r.rows == [] ==>
              r.store == store
    ensures date.Some? && !Live(store, Key(date.value), now) && r.rows != [] ==>
              Key(date.value) in r.store && r.store[Key(date.value)] == Entry(r.rows, now + TtlSeconds)
  {
    match date
    case None => Lookup([], store, 0)
    case Some(d) =>
      var key := Key(d);
      if Live(store, key, now) then Lookup(store[key].payload, store, 0)
      else
        var rows := db(d);
        if rows != [] then Lookup(rows, store[key := Entry(rows, now + TtlSeconds)], 1)
        else Lookup(rows, store, 1)
  }

  /** `get_daily_sales` of app_v2.py: a hit returns the stored payload, issues no query and
      leaves the store as it was; a miss queries once, returns the database rows and caches
      them for one TTL under the day's key even when there are none. */
  function GetDailySalesV2(store: Store, now: int, d: IsoDate, db: Database): (r: Lookup)
    ensures Live(store, Key(d), now) ==>
              r.rows == store[Key(d)].payload && r.store == store && r.queries == 0
    ensures !Live(store, Key(d), now) ==>
              && r.rows == db(d) && r.queries == 1
              && Key(d) in r.store && r.store[Key(d)] == Entry(r.rows, now + TtlSeconds)
              && SameElsewhere(r.store, store, Key(d))
  {
    var key := Key(d);
    if Live(store, key, now) then Lookup(store[key].payload, store, 0)
    else
      var rows := db(d);
      Lookup(rows, store[key := Entry(rows, now + TtlSeconds)], 1)
  }

  // ---------------------------------------------------------------------------
  // Invariants of the store

  /** Every entry holds exactly what the database answers for the date its key names. */
  ghost predicate Coherent(store: Store, db: Database) {
    forall k :: k in store ==> ParseKey(k).Some? && store[k].payload == db(ParseKey(k).value)
  }

  /** No entry is served later than one lifetime after `now`. */
  ghost predicate TtlBounded(store: Store, now: int) {
    forall k :: k in store ==> store[k].expiry <= now + TtlSeconds
  }

  /** No entry holds an empty payload. */
  ghost predicate NoEmptyEntries(store: Store) {
    forall k :: k in store ==> store[k].payload != []
  }

  /** Over a coherent store, app.py's cache is transparent: a call returns what the database
      would, and leaves the store coherent. */
  lemma ReadThroughV1(store: Store, now: int, d: IsoDate, db: Database)
    requires Coherent(store, db)
    ensures GetDailySalesV1(store, now, Some(d), db).rows == db(d)
    ensures Coherent(GetDailySalesV1(store, now, Some(d), db).store, db)
  {
    ParseKeyOfKey(d);
  }

  /** The same transparency for app_v2.py. */
  lemma ReadThroughV2(store: Store, now: int, d: IsoDate, db: Database)
    requires Coherent(store, db)
    ensures GetDailySalesV2(store, now, d, db).rows == db(d)
    ensures Coherent(GetDailySalesV2(store, now, d, db).store, db)
  {
    ParseKeyOfKey(d);
  }

  /** app.py never stores an empty result. */
  lemma NoEmptyEntriesPreservedV1(store: Store, now: int, date: Option<IsoDate>, db: Database)
    requires NoEmptyEntries(store)
    ensures NoEmptyEntries(GetDailySalesV1(store, now, date, db).store)
  {
  }

  /** Neither variant extends an entry's lifetime beyond one TTL from the latest call. */
  lemma TtlBoundedPreserved(store: Store, now: int, later: int, d: IsoDate, db: Database)
    requires TtlBounded(store, now) && now <= later
    ensures TtlBounded(GetDailySalesV1(store, later, Some(d), db).store, later)
    ensures TtlBounded(GetDailySalesV2(store, later, d, db).store, later)
  {
  }

  /** When the day has rows, the two variants behave identically. */
  lemma VariantsAgreeOnNonEmptyDay(store: Store, now: int, d: IsoDate, db: Database)
    requires db(d) != []
    ensures GetDailySalesV1(store, now, Some(d), db) == GetDailySalesV2(store, now, d, db)
  {
  }

  /** When the day has no rows and misses, the variants differ in exactly one entry: app_v2.py
      stores the empty result under the day's key, app.py stores nothing. */
  lemma VariantsDifferOnEmptyDay(store: Store, now: int, d: IsoDate, db: Database)
    requires db(d) == [] && !Live(store, Key(d), now)
    ensures GetDailySalesV1(store, now, Some(d), db).store == store
    ensures GetDailySalesV2(store, now, d, db).store == store[Key(d) := Entry([], now + TtlSeconds)]
  {
  }

  /** Two calls for a date within one TTL, in app.py: both return what the database holds;
      when the day has rows, at most one of the two calls queries. */
  lemma TwiceWithinTtlV1(store: Store, now: int, later: int, d: IsoDate, db: Database)
    requires Coherent(store, db)
    requires now <= later < now + TtlSeconds
    ensures var first := GetDailySalesV1(store, now, Some(d), db);
            var second := GetDailySalesV1(first.store, later, Some(d), db);
            && first.rows == second.rows == db(d)
            && (db(d) != [] ==> first.queries + second.queries <= 1)
  {
    ReadThroughV1(store, now, d, db);
    var first := GetDailySalesV1(store, now, Some(d), db);
    ReadThroughV1(first.store, later, d, db);
  }

  /** Two calls for a date within one TTL, in app_v2.py: both return what the database holds,
      and at most one of them queries, whatever the day holds. */
  lemma TwiceWithinTtlV2(store: Store, now: int, later: int, d: IsoDate, db: Database)
    requires Coherent(store, db)
    requires now <= later < now + TtlSeconds
    ensures var first := GetDailySalesV2(store, now, d, db);
            var second := GetDailySalesV2(first.store, later, d, db);
            && first.rows == second.rows == db(d)
            && first.queries + second.queries <= 1
  {
    ReadThroughV2(store, now, d, db);
    var first := GetDailySalesV2(store, now, d, db);
    ReadThroughV2(first.store, later, d, db);
  }

  /** In app.py a day that had no rows is asked again on the next call, so rows that have
      arrived since are returned at once. */
  lemma EmptyDayRetriedV1(store: Store, now: int, later: int, d: IsoDate, db: Database, db': Database)
    requires !Live(store, Key(d), now) && db(d) == []
    requires now <= later
    ensures var first := GetDailySalesV1(store, now, Some(d), db);
            var second := GetDailySalesV1(first.store, later, Some(d), db');
            second.rows == db'(d) && second.queries == 1
  {
  }

  /** In app.py a day whose query found no rows has no live entry afterwards, at that instant
      or any later one, so nothing for it is served from the cache. */
  lemma EmptyResultNotCachedV1(store: Store, now: int, later: int, d: IsoDate, db: Database)
    requires !Live(store, Key(d), now) && db(d) == []
    requires now <= later
    ensures !Live(GetDailySalesV1(store, now, Some(d), db).store, Key(d), later)
  {
  }

  /** In app_v2.py a day that had no rows stays empty for one TTL, whatever the database
      holds by then, and no query is issued. */
  lemma EmptyDayCachedV2(store: Store, now: int, later: int, d: IsoDate, db: Database, db': Database)
    requires !Live(store, Key(d), now) && db(d) == []
    requires now <= later < now + TtlSeconds
    ensures var first := GetDailySalesV2(store, now, d, db);
            var second := GetDailySalesV2(first.store, later, d, db');
            second.rows == [] && second.queries == 0
  {
  }

  /** Once one TTL has passed since the write, the next call queries again (reads never
      refresh the lifetime). */
  lemma ExpiredEntryRequeried(store: Store, now: int, later: int, d: IsoDate, db: Database, db': Database)
    requires !Live(store, Key(d), now)
    requires now + TtlSeconds <= later
    ensures var first := GetDailySalesV1(store, now, Some(d), db);
            var second := GetDailySalesV1(first.store, later, Some(d), db');
            second.rows == db'(d) && second.queries == 1
    ensures var first := GetDailySalesV2(store, now, d, db);
            var second := GetDailySalesV2(first.store, later, d, db');
            second.rows == db'(d) && second.queries == 1
  {
  }
}

=== FILE: calendar.dfy ===
/** Proleptic Gregorian calendar dates as Python's `datetime.date` represents them: their
    ISO 8601 `full-date` text (section 5.6 of RFC 3339, `YYYY-MM-DD`, as `date.isoformat()`
    produces it) and their day number (`date.toordinal()`, with 0001-01-01 as day 1). */
module Calendar {
  import opened Wrappers

  const MinYear := 1
  const MaxYear := 9999

  datatype Date = Date(year: int, month: int, day: int)

  predicate IsLeapYear(y: int) {
    y % 4 == 0 && (y % 100 != 0 || y % 400 == 0)
  }

  function DaysInYear(y: int): int {
    if IsLeapYear(y) then 366 else 365
  }

  function DaysInMonth(y: int, m: int): int
    requires 1 <= m <= 12
  {
    if m == 2 then (if IsLeapYear(y) then 29 else 28)
    else if m == 4 || m == 6 || m == 9 || m == 11 then 30
    else 31
  }

  /** The dates a Python `date` object can hold. */
  predicate Valid(d: Date) {
    && MinYear <= d.year <= MaxYear
    && 1 <= d.month <= 12
    && 1 <= d.day <= DaysInMonth(d.year, d.month)
  }

  type IsoDate = d: Date | Valid(d) witness Date(1, 1, 1)

  // ---------------------------------------------------------------------------
  // Zero-padded decimal digits

  function Pow10(n: nat): (r: nat)
    ensures r >= 1
  {
    if n == 0 then 1 else 10 * Pow10(n - 1)
  }

  predicate IsDigit(c: char) {
    '0' <= c <= '9'
  }

  predicate AllDigits(s: string) {
    forall i :: 0 <= i < |s| ==> IsDigit(s[i])
  }

  function DigitChar(v: nat): (c: char)
    requires v < 10
    ensures IsDigit(c)
  {
    "0123456789"[v]
  }

  function DigitValue(c: char): (v: nat)
    requires IsDigit(c)
    ensures v < 10
  {
    (c as int) - ('0' as int)
  }

  /** `n` written in exactly `width` decimal digits, most significant first, padded on the
      left with zeros (the `%0<width>d` conversion, for a value that fits). */
  function ZeroPad(n: nat, width: nat): (s: string)
    requires n < Pow10(width)
    ensures |s| == width
    ensures AllDigits(s)
  {
    if width == 0 then ""
    else ZeroPad(n / 10, width - 1) + [DigitChar(n % 10)]
  }

  /** The value of a string of decimal digits. */
  function ParseDigits(s: string): (n: nat)
    requires AllDigits(s)
    ensures n < Pow10(|s|)
  {
    if s == [] then 0
    else ParseDigits(s[..|s| - 1]) * 10 + DigitValue(s[|s| - 1])
  }

  lemma {:induction false} ParseZeroPad(n: nat, width: nat)
    requires n < Pow10(width)
    ensures ParseDigits(ZeroPad(n, width)) == n
  {
    if width > 0 {
      var s := ZeroPad(n, width);
      assert s[..|s| - 1] == ZeroPad(n / 10, width - 1);
      ParseZeroPad(n / 10, width - 1);
      assert DigitValue(DigitChar(n % 10)) == n % 10 by {
        assert "0123456789"[n % 10] as int == '0' as int + n % 10;
      }
    }
  }

  lemma {:induction false} ZeroPadParse(s: string)
    requires AllDigits(s)
    ensures ZeroPad(ParseDigits(s), |s|) == s
  {
    if s != [] {
      var front := s[..|s| - 1];
      var n := ParseDigits(s);
      ZeroPadParse(front);
      assert n / 10 == ParseDigits(front);
      assert n % 10 == DigitValue(s[|s| - 1]);
      assert DigitChar(DigitValue(s[|s| - 1])) == s[|s| - 1] by {
        var v := DigitValue(s[|s| - 1]);
        assert "0123456789"[v] as int == '0' as int + v;
      }
      assert s == front + [s[|s| - 1]];
    }
  }

  // ---------------------------------------------------------------------------
  // ISO 8601 full-date text

  /** Four, two and two characters joined by dashes. */
  function DateText(y: string, m: string, dd: string): string {
    y + "-" + m + "-" + dd
  }

  lemma DateTextParts(y: string, m: string, dd: string)
    requires |y| == 4 && |m| == 2 && |dd| == 2
    ensures var s := DateText(y, m, dd);
      |s| == 10 && s[4] == '-' && s[7] == '-' && s[..4] == y && s[5..7] == m && s[8..] == dd
  {
  }

  lemma DateTextOfParts(s: string)
    requires |s| == 10 && s[4] == '-' && s[7] == '-'
    ensures DateText(s[..4], s[5..7], s[8..]) == s
  {
  }

  lemma Pow10Widths()
    ensures Pow10(2) == 100 && Pow10(4) == 10000
  {
  }

  /** `date.isoformat()`: `YYYY-MM-DD`, every field zero-padded. */
  function IsoFormat(d: IsoDate): (s: string)
    ensures |s| == 10
    ensures s[4] == '-' && s[7] == '-'
    ensures AllDigits(s[..4]) && AllDigits(s[5..7]) && AllDigits(s[8..])
  {
    Pow10Widths();
    var y, m, dd := ZeroPad(d.year, 4), ZeroPad(d.month, 2), ZeroPad(d.day, 2);
    DateTextParts(y, m, dd);
    DateText(y, m, dd)
  }

  /** Reads `YYYY-MM-DD` back; `None` for any text that is not a valid date in that form. */
  function ParseIso(s: string): (r: Option<IsoDate>)
    ensures r.Some? ==> IsoFormat(r.value) == s
  {
    if |s| == 10 && s[4] == '-' && s[7] == '-'
       && AllDigits(s[..4]) && AllDigits(s[5..7]) && AllDigits(s[8..])
    then
      var d := Date(ParseDigits(s[..4]), ParseDigits(s[5..7]), ParseDigits(s[8..]));
      if Valid(d) then
        FormatOfParsed(s, d);
        Some(d)
      else None
    else None
  }

  lemma FormatOfParsed(s: string, d: IsoDate)
    requires |s| == 10 && s[4] == '-' && s[7] == '-'
    requires AllDigits(s[..4]) && AllDigits(s[5..7]) && AllDigits(s[8..])
    requires d == Date(ParseDigits(s[..4]), ParseDigits(s[5..7]), ParseDigits(s[8..]))
    ensures IsoFormat(d) == s
  {
    ZeroPadParse(s[..4]);
    ZeroPadParse(s[5..7]);
    ZeroPadParse(s[8..]);
    DateTextOfParts(s);
  }

  /** Formatting then parsing gives the date back. */
  lemma ParseIsoFormat(d: IsoDate)
    ensures ParseIso(IsoFormat(d)) == Some(d)
  {
    Pow10Widths();
    DateTextParts(ZeroPad(d.year, 4), ZeroPad(d.month, 2), ZeroPad(d.day, 2));
    ParseZeroPad(d.year, 4);
    ParseZeroPad(d.month, 2);
    ParseZeroPad(d.day, 2);
  }

  /** Distinct dates have distinct ISO texts. */
  lemma IsoFormatInjective(d1: IsoDate, d2: IsoDate)
    ensures IsoFormat(d1) == IsoFormat(d2) ==> d1 == d2
  {
    ParseIsoFormat(d1);
    ParseIsoFormat(d2);
  }

  // ---------------------------------------------------------------------------
  // Day numbers

  /** Days in the years before `y` (Python's `_days_before_year`). */
  function DaysBeforeYear(y: int): int
    requires y >= 1
  {
    var p := y - 1;
    p * 365 + p / 4 - p / 100 + p / 400
  }

  /** Days in the months of year `y` before month `m` (Python's `_days_before_month`). */
  function DaysBeforeMonth(y: int, m: int): int
    requires 1 <= m <= 12
  {
    [0, 0, 31, 59, 90, 120, 151, 181, 212, 243, 273, 304, 334][m]
      + (if m > 2 && IsLeapYear(y) then 1 else 0)
  }

  /** A day number: a date counted in days, as `date.toordinal()` counts it. */
  type Day = int

  /** `date.toordinal()`: 0001-01-01 is day 1, each following day one more (`OrdinalSuccessor`). */
  function ToOrdinal(d: IsoDate): Day {
    DaysBeforeYear(d.year) + DaysBeforeMonth(d.year, d.month) + d.day
  }

  /** Strict chronological order of dates, field by field. */
  predicate Before(d1: Date, d2: Date) {
    || d1.year < d2.year
    || (d1.year == d2.year && d1.month < d2.month)
    || (d1.year == d2.year && d1.month == d2.month && d1.day < d2.day)
  }

  lemma DivStep4(y: int)
    ensures y / 4 - (y - 1) / 4 == (if y % 4 == 0 then 1 else 0)
  {
    var q, r := (y - 1) / 4, (y - 1) % 4;
    assert y == 4 * q + r + 1;
    if r == 3 {
      assert y == 4 * (q + 1) + 0;
    } else {
      assert y == 4 * q + (r + 1);
    }
  }

  lemma DivStep100(y: int)
    ensures y / 100 - (y - 1) / 100 == (if y % 100 == 0 then 1 else 0)
  {
    var q, r := (y - 1) / 100, (y - 1) % 100;
    assert y == 100 * q + r + 1;
    if r == 99 {
      assert y == 100 * (q + 1) + 0;
    } else {
      assert y == 100 * q + (r + 1);
    }
  }

  lemma DivStep400(y: int)
    ensures y / 400 - (y - 1) / 400 == (if y % 400 == 0 then 1 else 0)
  {
    var q, r := (y - 1) / 400, (y - 1) % 400;
    assert y == 400 * q + r + 1;
    if r == 399 {
      assert y == 400 * (q + 1) + 0;
    } else {
      assert y == 400 * q + (r + 1);
    }
  }

  lemma Mod400IsMod100(y: int)
    requires y % 400 == 0
    ensures y % 100 == 0
  {
    var q := y / 400;
    assert y == 100 * (4 * q) + 0;
  }

  lemma Mod100IsMod4(y: int)
    requires y % 100 == 0
    ensures y % 4 == 0
  {
    var q := y / 100;
    assert y == 4 * (25 * q) + 0;
  }

  lemma DivisibilityChain(y: int)
    ensures y % 400 == 0 ==> y % 100 == 0
    ensures y % 100 == 0 ==> y % 4 == 0
  {
    if y % 400 == 0 {
      Mod400IsMod100(y);
    }
    if y % 100 == 0 {
      Mod100IsMod4(y);
    }
  }

  lemma DaysBeforeYearStep(y: int)
    requires y >= 1
    ensures DaysBeforeYear(y + 1) == DaysBeforeYear(y) + DaysInYear(y)
  {
    DivStep4(y);
    DivStep100(y);
    DivStep400(y);
    DivisibilityChain(y);
    var p := y - 1;
    assert DaysBeforeYear(y + 1) - DaysBeforeYear(y)
        == 365 + (y / 4 - p / 4) - (y / 100 - p / 100) + (y / 400 - p / 400);
  }

  lemma {:induction false} DaysBeforeYearMonotone(a: int, b: int)
    requires 1 <= a <= b
    ensures DaysBeforeYear(a) <= DaysBeforeYear(b)
    decreases b - a
  {
    if a < b {
      DaysBeforeYearStep(a);
      DaysBeforeYearMonotone(a + 1, b);
    }
  }

  lemma DaysBeforeMonthStep(y: int, m: int)
    requires 1 <= m < 12
    ensures DaysBeforeMonth(y, m + 1) == DaysBeforeMonth(y, m) + DaysInMonth(y, m)
  {
  }

  lemma {:induction false} DaysBeforeMonthMonotone(y: int, a: int, b: int)
    requires 1 <= a <= b <= 12
    ensures DaysBeforeMonth(y, a) + (if a < b then DaysInMonth(y, a) else 0) <= DaysBeforeMonth(y, b)
    decreases b - a
  {
    if a < b {
      DaysBeforeMonthStep(y, a);
      DaysBeforeMonthMonotone(y, a + 1, b);
    }
  }

  lemma DayOfYearBounds(d: IsoDate)
    ensures 1 <= DaysBeforeMonth(d.year, d.month) + d.day <= DaysInYear(d.year)
  {
    DaysBeforeMonthMonotone(d.year, d.month, 12);
  }

  lemma BeforeIncreasesOrdinal(d1: IsoDate, d2: IsoDate)
    requires Before(d1, d2)
    ensures ToOrdinal(d1) < ToOrdinal(d2)
  {
    if d1.year < d2.year {
      DayOfYearBounds(d1);
      DayOfYearBounds(d2);
      DaysBeforeYearStep(d1.year);
      DaysBeforeYearMonotone(d1.year + 1, d2.year);
    } else if d1.month < d2.month {
      DaysBeforeMonthMonotone(d1.year, d1.month, d2.month);
    }
  }

  /** Day numbers order dates chronologically; in particular distinct dates have distinct
      day numbers, so a date and its day number determine each other. */
  lemma OrdinalOrder(d1: IsoDate, d2: IsoDate)
    ensures Before(d1, d2) <==> ToOrdinal(d1) < ToOrdinal(d2)
    ensures d1 == d2 <==> ToOrdinal(d1) == ToOrdinal(d2)
  {
    if Before(d1, d2) {
      BeforeIncreasesOrdinal(d1, d2);
    } else if Before(d2, d1) {
      BeforeIncreasesOrdinal(d2, d1);
    }
  }

  /** The following calendar date: the next day of the month, else the first of the next
      month, else 1 January of the next year. */
  function NextDay(d: IsoDate): Date {
    if d.day < DaysInMonth(d.year, d.month) then Date(d.year, d.month, d.day + 1)
    else if d.month < 12 then Date(d.year, d.month + 1, 1)
    else Date(d.year + 1, 1, 1)
  }

  /** Consecutive dates have consecutive day numbers, so a shift by `n` days
      (`timedelta(days=n)`) is a difference of `n` in day numbers. */
  lemma OrdinalSuccessor(d: IsoDate)
    requires d.year < MaxYear || d.month < 12 || d.day < 31
    ensures Valid(NextDay(d)) && ToOrdinal(NextDay(d)) == ToOrdinal(d) + 1
  {
    if d.day < DaysInMonth(d.year, d.month) {
    } else if d.month < 12 {
      DaysBeforeMonthStep(d.year, d.month);
    } else {
      DaysBeforeYearStep(d.year);
    }
  }
}

=== FILE: geography.dfy ===
/** The geography section: a gate that asks whether `dim_customer` holds any country, and
    the revenue per country of the three-way join of order items, orders and customers. */
module Geography {
  import opened Wrappers
  import opened Seqs
  import opened Relational
  import opened Rfm

  /** One row of `dim_customer`. */
  datatype Customer = Customer(customerId: Option<int>, country: Option<string>)

  /** A joined row restricted to what the per-country query reads. */
  datatype CountryLine = CountryLine(country: string, lineTotal: Option<int>)

  datatype GeoResult = NoGeography | CountryRevenue(revenue: map<string, Option<int>>)

  /** `SELECT DISTINCT country FROM dim_customer WHERE country IS NOT NULL` */
  function Countries(customers: seq<Customer>): set<string> {
    set cu | cu in customers && cu.country.Some? :: cu.country.value
  }

  /** `can_do_geography()`: the count of distinct non-NULL countries is positive. */
  predicate CanDoGeography(customers: seq<Customer>) {
    |Countries(customers)| > 0
  }

  /** The gate is open exactly when some customer row has a country. */
  lemma CanDoGeographyIff(customers: seq<Customer>)
    ensures CanDoGeography(customers) <==> exists cu :: cu in customers && cu.country.Some?
  {
    if exists cu :: cu in customers && cu.country.Some? {
      var cu :| cu in customers && cu.country.Some?;
      assert cu.country.value in Countries(customers);
    }
  }

  /** `o.customer_id = c.customer_id` (NULL never equals anything) `AND c.country IS NOT NULL`. */
  predicate Matches(l: Line, cu: Customer) {
    cu.customerId.Some? && l.order.customerId == cu.customerId && cu.country.Some?
  }

  /** The joined line `l` paired with each matching customer row. */
  function MatchCustomers(l: Line, customers: seq<Customer>): (r: seq<CountryLine>)
    ensures forall x :: x in r ==> exists cu :: cu in customers && Matches(l, cu) && x == CountryLine(cu.country.value, l.item.lineTotal)
    ensures forall cu :: cu in customers && Matches(l, cu) ==> CountryLine(cu.country.value, l.item.lineTotal) in r
  {
    if customers == [] then []
    else
      var cu := customers[0];
      (if Matches(l, cu) then [CountryLine(cu.country.value, l.item.lineTotal)] else [])
        + MatchCustomers(l, customers[1..])
  }

  /** The join of the order lines with `dim_customer`, filtered on a non-NULL country. */
  function GeoLines(lines: seq<Line>, customers: seq<Customer>): (r: seq<CountryLine>)
    ensures forall x :: x in r ==> exists l, cu :: l in lines && cu in customers && Matches(l, cu) && x == CountryLine(cu.country.value, l.item.lineTotal)
    ensures forall l, cu :: l in lines && cu in customers && Matches(l, cu) ==> CountryLine(cu.country.value, l.item.lineTotal) in r
  {
    if lines == [] then []
    else MatchCustomers(lines[0], customers) + GeoLines(lines[1..], customers)
  }

  function LinesOfCountry(gl: seq<CountryLine>, k: string): seq<CountryLine> {
    Filter((x: CountryLine) => x.country == k, gl)
  }

  /** `SELECT c.country, SUM(i.line_total) … GROUP BY c.country` */
  function CountrySales(orders: seq<Order>, items: seq<OrderItem>, customers: seq<Customer>): map<string, Option<int>> {
    var gl := GeoLines(Join(orders, items), customers);
    map k | k in (set x | x in gl :: x.country) :: CountryTotal(gl, k)
  }

  /** The geography section: the per-country query runs only when the gate is open. */
  function Geography(orders: seq<Order>, items: seq<OrderItem>, customers: seq<Customer>): (r: GeoResult)
    ensures r.NoGeography? <==> forall cu :: cu in customers ==> cu.country.None?
    ensures r.CountryRevenue? ==> r.revenue == CountrySales(orders, items, customers)
  {
    CanDoGeographyIff(customers);
    if CanDoGeography(customers) then CountryRevenue(CountrySales(orders, items, customers))
    else NoGeography
  }

  /** A customer row with a country that a joined order of some item refers to. */
  predicate SoldTo(orders: seq<Order>, items: seq<OrderItem>, customers: seq<Customer>,
                   o: Order, i: OrderItem, cu: Customer, k: string)
  {
    o in orders && i in items && cu in customers && o.orderId == i.orderId
    && cu.customerId.Some? && o.customerId == cu.customerId && cu.country == Some(k)
  }

  /** A country gets a revenue row exactly when some item of some order belongs to a
      customer of that country. */
  lemma CountrySalesDomain(orders: seq<Order>, items: seq<OrderItem>, customers: seq<Customer>, k: string)
    ensures k in CountrySales(orders, items, customers) <==>
              exists o, i, cu :: SoldTo(orders, items, customers, o, i, cu, k)
  {
    var lines := Join(orders, items);
    var gl := GeoLines(lines, customers);
    if k in CountrySales(orders, items, customers) {
      var x :| x in gl && x.country == k;
      var l, cu :| l in lines && cu in customers && Matches(l, cu) && x == CountryLine(cu.country.value, l.item.lineTotal);
      assert SoldTo(orders, items, customers, l.order, l.item, cu, k);
    }
    if exists o, i, cu :: SoldTo(orders, items, customers, o, i, cu, k) {
      var o, i, cu :| SoldTo(orders, items, customers, o, i, cu, k);
      assert Line(o, i) in lines;
      assert CountryLine(k, i.lineTotal) in gl;
    }
  }

  /** Every country in the result is one the gate counts; so when the gate is closed the
      per-country query would have returned nothing, and skipping it loses nothing. */
  lemma GateOnlySkipsEmptyResult(orders: seq<Order>, items: seq<OrderItem>, customers: seq<Customer>)
    ensures CountrySales(orders, items, customers).Keys <= Countries(customers)
    ensures !CanDoGeography(customers) ==> CountrySales(orders, items, customers) == map[]
  {
    forall k | k in CountrySales(orders, items, customers) ensures k in Countries(customers) {
      CountrySalesDomain(orders, items, customers, k);
      var o, i, cu :| SoldTo(orders, items, customers, o, i, cu, k);
    }
  }

  // ---------------------------------------------------------------------------
  // The revenue of one country, customer by customer

  /** The NULL-aware total, over the customer rows of country `k` that have an id, of each
      customer's spend summed order by order (`Rfm.CustomerSpend`). A customer id listed on
      two rows of `dim_customer` counts twice, as it does in the join. */
  function CountrySpend(orders: seq<Order>, items: seq<OrderItem>, customers: seq<Customer>, k: string): Option<int> {
    if customers == [] then None
    else
      var cu := customers[0];
      AddPartial(if cu.country == Some(k) && cu.customerId.Some? then CustomerSpend(orders, items, cu.customerId.value) else None,
                 CountrySpend(orders, items, customers[1..], k))
  }

  /** The line total that joined line `l` and customer row `cu` contribute to country `k`. */
  function Cell(k: string, l: Line, cu: Customer): Option<int> {
    if Matches(l, cu) && cu.country == Some(k) then l.item.lineTotal else None
  }

  /** The contributions of one line, summed over the customer rows. */
  function LineRevenue(k: string, l: Line, cs: seq<Customer>): Option<int> {
    if cs == [] then None else AddPartial(Cell(k, l, cs[0]), LineRevenue(k, l, cs[1..]))
  }

  /** The contributions of one customer row, summed over the lines. */
  function CustomerRevenue(k: string, ls: seq<Line>, cu: Customer): Option<int> {
    if ls == [] then None else AddPartial(Cell(k, ls[0], cu), CustomerRevenue(k, ls[1..], cu))
  }

  /** All contributions, line by line. */
  function ByLines(k: string, ls: seq<Line>, cs: seq<Customer>): Option<int> {
    if ls == [] then None else AddPartial(LineRevenue(k, ls[0], cs), ByLines(k, ls[1..], cs))
  }

  /** All contributions, customer row by customer row. */
  function ByCustomers(k: string, ls: seq<Line>, cs: seq<Customer>): Option<int> {
    if cs == [] then None else AddPartial(CustomerRevenue(k, ls, cs[0]), ByCustomers(k, ls, cs[1..]))
  }

  /** The revenue column of the joined rows of country `k`, summed. */
  function CountryTotal(gl: seq<CountryLine>, k: string): Option<int> {
    SqlSum(Project((x: CountryLine) => x.lineTotal, LinesOfCountry(gl, k)))
  }

  lemma AddPartialSwap(a: Option<int>, b: Option<int>, c: Option<int>, d: Option<int>)
    ensures AddPartial(AddPartial(a, b), AddPartial(c, d)) == AddPartial(AddPartial(a, c), AddPartial(b, d))
  {
  }

  lemma {:induction false} ByCustomersCons(k: string, l: Line, ls: seq<Line>, cs: seq<Customer>)
    ensures ByCustomers(k, [l] + ls, cs) == AddPartial(LineRevenue(k, l, cs), ByCustomers(k, ls, cs))
  {
    if cs != [] {
      ByCustomersCons(k, l, ls, cs[1..]);
      assert ([l] + ls)[1..] == ls;
      AddPartialSwap(Cell(k, l, cs[0]), CustomerRevenue(k, ls, cs[0]),
                     LineRevenue(k, l, cs[1..]), ByCustomers(k, ls, cs[1..]));
    }
  }

  /** Summing line by line and summing customer by customer give the same total. */
  lemma {:induction false} ExchangeSums(k: string, ls: seq<Line>, cs: seq<Customer>)
    ensures ByLines(k, ls, cs) == ByCustomers(k, ls, cs)
  {
    if ls == [] {
      NoLinesNoRevenue(k, cs);
    } else {
      ExchangeSums(k, ls[1..], cs);
      assert ls == [ls[0]] + ls[1..];
      ByCustomersCons(k, ls[0], ls[1..], cs);
    }
  }

  lemma {:induction false} NoLinesNoRevenue(k: string, cs: seq<Customer>)
    ensures ByCustomers(k, [], cs) == None
  {
    if cs != [] {
      NoLinesNoRevenue(k, cs[1..]);
    }
  }

  lemma CountryTotalAppend(a: seq<CountryLine>, b: seq<CountryLine>, k: string)
    ensures CountryTotal(a + b, k) == AddPartial(CountryTotal(a, k), CountryTotal(b, k))
  {
    var p := (x: CountryLine) => x.country == k;
    var f := (x: CountryLine) => x.lineTotal;
    FilterAppend(p, a, b);
    ProjectAppend(f, Filter(p, a), Filter(p, b));
    SqlSumAppend(Project(f, Filter(p, a)), Project(f, Filter(p, b)));
  }

  lemma {:induction false} MatchCustomersTotal(k: string, l: Line, cs: seq<Customer>)
    ensures CountryTotal(MatchCustomers(l, cs), k) == LineRevenue(k, l, cs)
  {
    if cs != [] {
      var cu := cs[0];
      var head := if Matches(l, cu) then [CountryLine(cu.country.value, l.item.lineTotal)] else [];
      MatchCustomersTotal(k, l, cs[1..]);
      CountryTotalAppend(head, MatchCustomers(l, cs[1..]), k);
      assert CountryTotal(head, k) == Cell(k, l, cu) by {
        if Matches(l, cu) && cu.country == Some(k) {
          assert LinesOfCountry(head, k) == head;
        } else {
          assert LinesOfCountry(head, k) == [];
        }
      }
    }
  }

  lemma {:induction false} GeoLinesTotal(k: string, ls: seq<Line>, cs: seq<Customer>)
    ensures CountryTotal(GeoLines(ls, cs), k) == ByLines(k, ls, cs)
  {
    if ls != [] {
      GeoLinesTotal(k, ls[1..], cs);
      MatchCustomersTotal(k, ls[0], cs);
      CountryTotalAppend(MatchCustomers(ls[0], cs), GeoLines(ls[1..], cs), k);
    }
  }

  /** A customer row outside country `k`, or without an id, contributes nothing. */
  lemma {:induction false} OtherCustomerRevenue(k: string, ls: seq<Line>, cu: Customer)
    requires !(cu.country == Some(k) && cu.customerId.Some?)
    ensures CustomerRevenue(k, ls, cu) == None
  {
    if ls != [] {
      OtherCustomerRevenue(k, ls[1..], cu);
    }
  }

  /** A customer row of country `k` contributes the line totals of its customer's group. */
  lemma {:induction false} OwnCustomerRevenue(k: string, ls: seq<Line>, cu: Customer)
    requires cu.country == Some(k) && cu.customerId.Some?
    ensures CustomerRevenue(k, ls, cu) == SqlSum(LineTotals(Group(ls, cu.customerId.value)))
  {
    var c := cu.customerId.value;
    if ls != [] {
      OwnCustomerRevenue(k, ls[1..], cu);
      var rest := Group(ls[1..], c);
      if OfCustomer(c, ls[0]) {
        assert Group(ls, c) == [ls[0]] + rest;
        LineTotalsAppend([ls[0]], rest);
        SqlSumAppend(LineTotals([ls[0]]), LineTotals(rest));
      } else {
        assert Group(ls, c) == rest;
      }
    }
  }

  lemma {:induction false} ByCustomersIsCountrySpend(orders: seq<Order>, items: seq<OrderItem>, cs: seq<Customer>, k: string)
    ensures ByCustomers(k, Join(orders, items), cs) == CountrySpend(orders, items, cs, k)
  {
    if cs != [] {
      ByCustomersIsCountrySpend(orders, items, cs[1..], k);
      var cu := cs[0];
      if cu.country == Some(k) && cu.customerId.Some? {
        OwnCustomerRevenue(k, Join(orders, items), cu);
        MonetaryIsCustomerSpend(orders, items, cu.customerId.value);
      } else {
        OtherCustomerRevenue(k, Join(orders, items), cu);
      }
    }
  }

  /** The revenue of every country in the result is the NULL-aware total of the spend of
      that country's customers, order by order; a country outside the result has no such
      spend. */
  lemma CountrySalesValue(orders: seq<Order>, items: seq<OrderItem>, customers: seq<Customer>, k: string)
    ensures (if k in CountrySales(orders, items, customers) then CountrySales(orders, items, customers)[k] else None)
            == CountrySpend(orders, items, customers, k)
  {
    var lines := Join(orders, items);
    var gl := GeoLines(lines, customers);
    GeoLinesTotal(k, lines, customers);
    ExchangeSums(k, lines, customers);
    ByCustomersIsCountrySpend(orders, items, customers, k);
  }
}

=== FILE: relational.dfy ===
/** SQL aggregates over a column that may hold NULL: `SUM` and `MAX` skip NULLs and are
    NULL themselves when no non-NULL value is left. */
module Relational {
  import opened Wrappers

  /** NULL-aware addition of two partial sums: NULL only when both are NULL. */
  function AddPartial(a: Option<int>, b: Option<int>): Option<int> {
    match (a, b)
    case (None, _) => b
    case (_, None) => a
    case (Some(x), Some(y)) => Some(x + y)
  }

  /** The arithmetic total of the non-NULL values of a column, NULLs counting as nothing. */
  function TotalOfPresent(xs: seq<Option<int>>): int {
    if xs == [] then 0
    else (if xs[0].Some? then xs[0].value else 0) + TotalOfPresent(xs[1..])
  }

  /** SQL `SUM` over a column: NULL when no value is present, otherwise the total of the
      present values. */
  function SqlSum(xs: seq<Option<int>>): (r: Option<int>)
    ensures r.None? <==> forall i :: 0 <= i < |xs| ==> xs[i].None?
    ensures TotalOfPresent(xs) == if r.Some? then r.value else 0
  {
    if xs == [] then None
    else AddPartial(xs[0], SqlSum(xs[1..]))
  }

  /** SQL `MAX` over a column. */
  function SqlMax(xs: seq<Option<int>>): (r: Option<int>)
    ensures r.None? <==> forall i :: 0 <= i < |xs| ==> xs[i].None?
    ensures r.Some? ==> exists i :: 0 <= i < |xs| && xs[i] == r
    ensures r.Some? ==> forall i :: 0 <= i < |xs| && xs[i].Some? ==> xs[i].value <= r.value
  {
    if xs == [] then None
    else
      var rest := SqlMax(xs[1..]);
      match xs[0]
      case None => rest
      case Some(x) => if rest.Some? && rest.value > x then rest else Some(x)
  }

  /** The sum of a column split in two parts is the sum of the parts' sums, so `SUM`
      does not depend on how the rows of a group are partitioned. */
  lemma {:induction false} SqlSumAppend(a: seq<Option<int>>, b: seq<Option<int>>)
    ensures SqlSum(a + b) == AddPartial(SqlSum(a), SqlSum(b))
  {
    if a == [] {
      assert a + b == b;
    } else {
      assert (a + b)[1..] == a[1..] + b;
      SqlSumAppend(a[1..], b);
    }
  }
}

=== FILE: rfm.dfy ===
/** Recency / frequency / monetary per customer: the inner join of `fact_order` with
    `fact_order_item` on the order id, grouped by customer, followed by pandas' `dropna()`.
    Dates are day numbers; money is in cents. */
module Rfm {
  import opened Wrappers
  import opened Seqs
  import opened Relational
  import opened Calendar

  datatype Order = Order(orderId: int, customerId: Option<int>, invoiceDate: Option<Day>)
  datatype OrderItem = OrderItem(orderId: int, lineTotal: Option<int>)

  /** One row of the join: an order paired with one of its items. */
  datatype Line = Line(order: Order, item: OrderItem)

  datatype CustomerRfm = CustomerRfm(recency: int, frequency: nat, monetary: int)

  /** The fixed reference date of app.py's query, `'2011-12-09'::date`. */
  const FixedReference: IsoDate := Date(2011, 12, 9)

  /** `o` joined with each of its items, in item order. */
  function LinesOf(o: Order, items: seq<OrderItem>): (r: seq<Line>)
    ensures forall l :: l in r <==> l.order == o && l.item in items && l.item.orderId == o.orderId
  {
    if items == [] then []
    else
      (if items[0].orderId == o.orderId then [Line(o, items[0])] else []) + LinesOf(o, items[1..])
  }

  /** `fact_order o JOIN fact_order_item i ON o.order_id = i.order_id` */
  function Join(orders: seq<Order>, items: seq<OrderItem>): (r: seq<Line>)
    ensures forall l :: l in r <==> l.order in orders && l.item in items && l.order.orderId == l.item.orderId
  {
    if orders == [] then [] else LinesOf(orders[0], items) + Join(orders[1..], items)
  }

  predicate OfCustomer(c: int, l: Line) {
    l.order.customerId == Some(c)
  }

  /** The joined rows of one customer (`GROUP BY o.customer_id`). */
  function Group(lines: seq<Line>, c: int): seq<Line> {
    Filter((l: Line) => OfCustomer(c, l), lines)
  }

  /** The non-NULL customer ids of the joined rows. */
  function CustomersOf(lines: seq<Line>): set<int> {
    set l | l in lines && l.order.customerId.Some? :: l.order.customerId.value
  }

  function InvoiceDates(g: seq<Line>): seq<Option<Day>> {
    Project((l: Line) => l.order.invoiceDate, g)
  }

  function LineTotals(g: seq<Line>): seq<Option<int>> {
    Project((l: Line) => l.item.lineTotal, g)
  }

  /** `COUNT(DISTINCT o.order_id)` */
  function OrderIds(g: seq<Line>): set<int> {
    set l | l in g :: l.order.orderId
  }

  /** The group's row, or `None` when `dropna()` would remove it (no invoice date, so
      `MAX` is NULL, or no line total, so `SUM` is NULL). */
  function Aggregate(g: seq<Line>, reference: Day): Option<CustomerRfm> {
    var latest := SqlMax(InvoiceDates(g));
    var monetary := SqlSum(LineTotals(g));
    if latest.Some? && monetary.Some? then
      Some(CustomerRfm(reference - latest.value, |OrderIds(g)|, monetary.value))
    else None
  }

  /** The RFM query followed by `dropna()`, keyed by customer id (the group-by key; rows with
      a NULL customer id are dropped). */
  function Compute(orders: seq<Order>, items: seq<OrderItem>, reference: Day): map<int, CustomerRfm> {
    var lines := Join(orders, items);
    map c | c in CustomersOf(lines) && Aggregate(Group(lines, c), reference).Some? ::
      Aggregate(Group(lines, c), reference).value
  }

  /** app.py: recency is measured from 2011-12-09. A customer has a row exactly when the base
      relations give them a dated and a priced joined order, and the row reads as
      `RowMeaning` says. */
  function RfmV1(orders: seq<Order>, items: seq<OrderItem>): (r: map<int, CustomerRfm>)
    ensures forall c :: c in r <==> HasRfmRow(orders, items, c)
    ensures forall c :: c in r ==> RowMeaning(orders, items, ToOrdinal(FixedReference), c, r[c])
  {
    ComputeCharacterised(orders, items, ToOrdinal(FixedReference));
    Compute(orders, items, ToOrdinal(FixedReference))
  }

  /** app_v2.py: recency is measured from the selected date, over all orders. Its table has
      app.py's customers, frequencies and monetary values, and every recency moved by the
      number of days from 2011-12-09 to the selected date. */
  function RfmV2(orders: seq<Order>, items: seq<OrderItem>, dt: Day): (r: map<int, CustomerRfm>)
    ensures forall c :: c in r <==> HasRfmRow(orders, items, c)
    ensures forall c :: c in r ==> RowMeaning(orders, items, dt, c, r[c])
    ensures var v1 := RfmV1(orders, items);
      && r.Keys == v1.Keys
      && forall c :: c in r ==>
           && r[c].frequency == v1[c].frequency
           && r[c].monetary == v1[c].monetary
           && r[c].recency == v1[c].recency + (dt - ToOrdinal(FixedReference))
  {
    ComputeCharacterised(orders, items, dt);
    ReferenceShiftsRecency(orders, items, dt, ToOrdinal(FixedReference));
    Compute(orders, items, dt)
  }

  // ---------------------------------------------------------------------------
  // Characterisation over the base relations

  /** Order `o` and item `i` form a joined row of customer `c`. */
  predicate JoinedFor(orders: seq<Order>, items: seq<OrderItem>, c: int, o: Order, i: OrderItem) {
    o in orders && i in items && o.orderId == i.orderId && o.customerId == Some(c)
  }

  /** The distinct ids of the orders of `c` that have at least one item, read off the base
      relations. */
  function JoinedOrderIds(orders: seq<Order>, items: seq<OrderItem>, c: int): set<int> {
    set o, i | o in orders && i in items && JoinedFor(orders, items, c, o, i) :: o.orderId
  }

  lemma GroupMembership(orders: seq<Order>, items: seq<OrderItem>, c: int)
    ensures forall l :: l in Group(Join(orders, items), c) <==> JoinedFor(orders, items, c, l.order, l.item)
  {
    var lines := Join(orders, items);
    var g := Group(lines, c);
    forall l: Line | JoinedFor(orders, items, c, l.order, l.item) ensures l in g {
      assert l in lines;
      var k :| 0 <= k < |lines| && lines[k] == l;
      assert OfCustomer(c, lines[k]);
    }
    forall l | l in g ensures JoinedFor(orders, items, c, l.order, l.item) {
      var k :| 0 <= k < |g| && g[k] == l;
      assert OfCustomer(c, g[k]);
    }
  }

  /** A group has a dated row. */
  predicate HasDated(g: seq<Line>) {
    exists l :: l in g && l.order.invoiceDate.Some?
  }

  /** A group has a priced row. */
  predicate HasPriced(g: seq<Line>) {
    exists l :: l in g && l.item.lineTotal.Some?
  }

  /** What the aggregates of one group mean: the row survives `dropna()` exactly when the
      group has a dated and a priced row; recency is measured to the group's latest invoice
      date; frequency counts its distinct orders, at least one. */
  lemma AggregateCharacterised(g: seq<Line>, reference: Day)
    ensures Aggregate(g, reference).Some? <==> HasDated(g) && HasPriced(g)
    ensures Aggregate(g, reference).Some? ==>
      var a := Aggregate(g, reference).value;
      && a.frequency == |OrderIds(g)| >= 1
      && (exists l :: l in g && l.order.invoiceDate == Some(reference - a.recency))
      && (forall l :: l in g && l.order.invoiceDate.Some? ==> l.order.invoiceDate.value <= reference - a.recency)
  {
    var dates := InvoiceDates(g);
    var totals := LineTotals(g);
    if HasDated(g) {
      var l :| l in g && l.order.invoiceDate.Some?;
      var k :| 0 <= k < |g| && g[k] == l;
      assert dates[k].Some?;
    }
    if HasPriced(g) {
      var l :| l in g && l.item.lineTotal.Some?;
      var k :| 0 <= k < |g| && g[k] == l;
      assert totals[k].Some?;
    }
    var latest := SqlMax(dates);
    if latest.Some? {
      var k :| 0 <= k < |dates| && dates[k] == latest;
      assert g[k] in g;
      assert g[k].order.orderId in OrderIds(g);
      forall l | l in g && l.order.invoiceDate.Some?
        ensures l.order.invoiceDate.value <= latest.value
      {
        var j :| 0 <= j < |g| && g[j] == l;
        assert dates[j] == l.order.invoiceDate;
      }
    }
    if SqlSum(totals).Some? {
      var k :| 0 <= k < |totals| && totals[k].Some?;
      assert g[k] in g;
    }
  }

  /** The output has one row per customer that has a dated order joined to some item and an
      order joined to a priced item. */
  lemma ComputeDomain(orders: seq<Order>, items: seq<OrderItem>, reference: Day, c: int)
    ensures c in Compute(orders, items, reference) <==>
              (exists o, i :: JoinedFor(orders, items, c, o, i) && o.invoiceDate.Some?) &&
              (exists o, i :: JoinedFor(orders, items, c, o, i) && i.lineTotal.Some?)
  {
    var lines := Join(orders, items);
    var g := Group(lines, c);
    GroupMembership(orders, items, c);
    AggregateCharacterised(g, reference);
    if HasDated(g) {
      var l :| l in g && l.order.invoiceDate.Some?;
      assert JoinedFor(orders, items, c, l.order, l.item);
      assert l in lines;
      assert c in CustomersOf(lines);
    }
    if (exists o, i :: JoinedFor(orders, items, c, o, i) && o.invoiceDate.Some?) {
      var o, i :| JoinedFor(orders, items, c, o, i) && o.invoiceDate.Some?;
      assert Line(o, i) in g;
    }
    if (exists o, i :: JoinedFor(orders, items, c, o, i) && i.lineTotal.Some?) {
      var o, i :| JoinedFor(orders, items, c, o, i) && i.lineTotal.Some?;
      assert Line(o, i) in g;
    }
    if HasPriced(g) {
      var l :| l in g && l.item.lineTotal.Some?;
      assert JoinedFor(orders, items, c, l.order, l.item);
    }
  }

  lemma ComputeLookup(orders: seq<Order>, items: seq<OrderItem>, reference: Day, c: int)
    requires c in Compute(orders, items, reference)
    ensures Aggregate(Group(Join(orders, items), c), reference) == Some(Compute(orders, items, reference)[c])
  {
  }

  lemma GroupOrderIds(orders: seq<Order>, items: seq<OrderItem>, c: int)
    ensures OrderIds(Group(Join(orders, items), c)) == JoinedOrderIds(orders, items, c)
  {
    var g := Group(Join(orders, items), c);
    GroupMembership(orders, items, c);
    var ids := JoinedOrderIds(orders, items, c);
    forall id | id in ids ensures id in OrderIds(g) {
      var o, i :| o in orders && i in items && JoinedFor(orders, items, c, o, i) && o.orderId == id;
      assert Line(o, i) in g;
    }
  }

  lemma JoinedRowFrequency(orders: seq<Order>, items: seq<OrderItem>, reference: Day, c: int, row: CustomerRfm)
    requires Aggregate(Group(Join(orders, items), c), reference) == Some(row)
    ensures row.frequency == |JoinedOrderIds(orders, items, c)| >= 1
  {
    AggregateCharacterised(Group(Join(orders, items), c), reference);
    GroupOrderIds(orders, items, c);
  }

  lemma LatestLine(g: seq<Line>, reference: Day, row: CustomerRfm) returns (l: Line)
    requires Aggregate(g, reference) == Some(row)
    ensures l in g && l.order.invoiceDate == Some(reference - row.recency)
  {
    AggregateCharacterised(g, reference);
    l :| l in g && l.order.invoiceDate == Some(reference - row.recency);
  }

  lemma JoinedRowLatest(orders: seq<Order>, items: seq<OrderItem>, reference: Day, c: int, row: CustomerRfm)
      returns (o: Order, i: OrderItem)
    requires Aggregate(Group(Join(orders, items), c), reference) == Some(row)
    ensures JoinedFor(orders, items, c, o, i) && o.invoiceDate == Some(reference - row.recency)
  {
    var l := LatestLine(Group(Join(orders, items), c), reference, row);
    GroupMembership(orders, items, c);
    o, i := l.order, l.item;
  }

  lemma JoinedRowBound(orders: seq<Order>, items: seq<OrderItem>, reference: Day, c: int, row: CustomerRfm)
    requires Aggregate(Group(Join(orders, items), c), reference) == Some(row)
    ensures forall o, i :: JoinedFor(orders, items, c, o, i) && o.invoiceDate.Some? ==>
              o.invoiceDate.value <= reference - row.recency
  {
    var g := Group(Join(orders, items), c);
    AggregateCharacterised(g, reference);
    GroupMembership(orders, items, c);
    forall o, i | JoinedFor(orders, items, c, o, i) && o.invoiceDate.Some?
      ensures o.invoiceDate.value <= reference - row.recency
    {
      assert Line(o, i) in g;
    }
  }

  /** Each output row counts the customer's distinct joined orders (at least one) and
      measures recency to the customer's latest invoice date among them. */
  lemma ComputeRow(orders: seq<Order>, items: seq<OrderItem>, reference: Day, c: int)
    requires c in Compute(orders, items, reference)
    ensures var row := Compute(orders, items, reference)[c];
      && row.frequency == |JoinedOrderIds(orders, items, c)| >= 1
      && (exists o, i :: JoinedFor(orders, items, c, o, i) && o.invoiceDate == Some(reference - row.recency))
      && (forall o, i :: JoinedFor(orders, items, c, o, i) && o.invoiceDate.Some? ==>
            o.invoiceDate.value <= reference - row.recency)
  {
    ComputeLookup(orders, items, reference, c);
    var row := Compute(orders, items, reference)[c];
    JoinedRowFrequency(orders, items, reference, c, row);
    var o, i := JoinedRowLatest(orders, items, reference, c, row);
    JoinedRowBound(orders, items, reference, c, row);
  }

  /** The NULL-aware total of the items of order `oid`, read off the item relation. */
  function OrderTotal(oid: int, items: seq<OrderItem>): Option<int> {
    if items == [] then None
    else AddPartial(if items[0].orderId == oid then items[0].lineTotal else None, OrderTotal(oid, items[1..]))
  }

  /** The NULL-aware total of the order totals of customer `c`, order by order. */
  function CustomerSpend(orders: seq<Order>, items: seq<OrderItem>, c: int): Option<int> {
    if orders == [] then None
    else
      AddPartial(if orders[0].customerId == Some(c) then OrderTotal(orders[0].orderId, items) else None,
                 CustomerSpend(orders[1..], items, c))
  }

  lemma {:induction false} LineTotalsAppend(a: seq<Line>, b: seq<Line>)
    ensures LineTotals(a + b) == LineTotals(a) + LineTotals(b)
  {
    assert |LineTotals(a + b)| == |LineTotals(a) + LineTotals(b)|;
    forall k | 0 <= k < |a + b| ensures LineTotals(a + b)[k] == (LineTotals(a) + LineTotals(b))[k] {
      if k >= |a| {
        assert (a + b)[k] == b[k - |a|];
      }
    }
  }

  lemma {:induction false} LinesOfTotal(o: Order, items: seq<OrderItem>)
    ensures SqlSum(LineTotals(LinesOf(o, items))) == OrderTotal(o.orderId, items)
  {
    if items != [] {
      var head := if items[0].orderId == o.orderId then [Line(o, items[0])] else [];
      LinesOfTotal(o, items[1..]);
      LineTotalsAppend(head, LinesOf(o, items[1..]));
      SqlSumAppend(LineTotals(head), LineTotals(LinesOf(o, items[1..])));
      if head == [] {
        assert LineTotals(head) == [];
      } else {
        assert LineTotals(head) == [items[0].lineTotal];
        assert SqlSum([items[0].lineTotal]) == AddPartial(items[0].lineTotal, None);
      }
    }
  }

  lemma {:induction false} GroupOfLinesOf(o: Order, items: seq<OrderItem>, c: int)
    ensures Group(LinesOf(o, items), c) == if o.customerId == Some(c) then LinesOf(o, items) else []
  {
    if items != [] {
      var head := if items[0].orderId == o.orderId then [Line(o, items[0])] else [];
      GroupOfLinesOf(o, items[1..], c);
      FilterAppend((l: Line) => OfCustomer(c, l), head, LinesOf(o, items[1..]));
    }
  }

  /** The monetary value is the customer's spend summed order by order: the join and the
      grouping neither lose nor double any line total. */
  lemma {:induction false} MonetaryIsCustomerSpend(orders: seq<Order>, items: seq<OrderItem>, c: int)
    ensures SqlSum(LineTotals(Group(Join(orders, items), c))) == CustomerSpend(orders, items, c)
  {
    if orders != [] {
      var here := LinesOf(orders[0], items);
      var rest := Join(orders[1..], items);
      MonetaryIsCustomerSpend(orders[1..], items, c);
      FilterAppend((l: Line) => OfCustomer(c, l), here, rest);
      GroupOfLinesOf(orders[0], items, c);
      LineTotalsAppend(Group(here, c), Group(rest, c));
      SqlSumAppend(LineTotals(Group(here, c)), LineTotals(Group(rest, c)));
      if orders[0].customerId == Some(c) {
        LinesOfTotal(orders[0], items);
      } else {
        assert LineTotals(Group(here, c)) == [];
      }
    }
  }

  /** Customer `c` has a dated joined order and a priced joined item in the base relations. */
  ghost predicate HasRfmRow(orders: seq<Order>, items: seq<OrderItem>, c: int) {
    && (exists o, i :: JoinedFor(orders, items, c, o, i) && o.invoiceDate.Some?)
    && (exists o, i :: JoinedFor(orders, items, c, o, i) && i.lineTotal.Some?)
  }

  /** What row `row` of customer `c` says about the base relations, measured from
      `reference`: frequency is the number of their distinct orders that have an item, at
      least 1; `reference - recency` is the invoice date of one of their joined orders and no
      such date is later; monetary is their spend, order by order. */
  ghost predicate RowMeaning(orders: seq<Order>, items: seq<OrderItem>, reference: Day, c: int, row: CustomerRfm) {
    && row.frequency == |JoinedOrderIds(orders, items, c)| >= 1
    && (exists o, i :: JoinedFor(orders, items, c, o, i) && o.invoiceDate == Some(reference - row.recency))
    && (forall o, i :: JoinedFor(orders, items, c, o, i) && o.invoiceDate.Some? ==>
          o.invoiceDate.value <= reference - row.recency)
    && CustomerSpend(orders, items, c) == Some(row.monetary)
  }

  /** The whole RFM table read against the base relations. */
  lemma ComputeCharacterised(orders: seq<Order>, items: seq<OrderItem>, reference: Day)
    ensures forall c :: c in Compute(orders, items, reference) <==> HasRfmRow(orders, items, c)
    ensures forall c :: c in Compute(orders, items, reference) ==>
              RowMeaning(orders, items, reference, c, Compute(orders, items, reference)[c])
  {
    forall c ensures c in Compute(orders, items, reference) <==> HasRfmRow(orders, items, c) {
      ComputeDomain(orders, items, reference, c);
    }
    forall c | c in Compute(orders, items, reference)
      ensures RowMeaning(orders, items, reference, c, Compute(orders, items, reference)[c])
    {
      ComputeRow(orders, items, reference, c);
      ComputeMonetary(orders, items, reference, c);
    }
  }

  /** Each output row's monetary value is the customer's spend, order by order. */
  lemma ComputeMonetary(orders: seq<Order>, items: seq<OrderItem>, reference: Day, c: int)
    requires c in Compute(orders, items, reference)
    ensures CustomerSpend(orders, items, c) == Some(Compute(orders, items, reference)[c].monetary)
  {
    ComputeLookup(orders, items, reference, c);
    MonetaryIsCustomerSpend(orders, items, c);
  }

  /** The reference date shifts recency and nothing else: the same customers, frequencies and
      monetary values come out for any two reference dates. */
  lemma ReferenceShiftsRecency(orders: seq<Order>, items: seq<OrderItem>, ref1: Day, ref2: Day)
    ensures var r1 := Compute(orders, items, ref1);
            var r2 := Compute(orders, items, ref2);
            && r1.Keys == r2.Keys
            && forall c :: c in r1 ==>
                 && r1[c].frequency == r2[c].frequency
                 && r1[c].monetary == r2[c].monetary
                 && r1[c].recency - r2[c].recency == ref1 - ref2
  {
    var lines := Join(orders, items);
    var r1 := Compute(orders, items, ref1);
    var r2 := Compute(orders, items, ref2);
    assert forall c :: Aggregate(Group(lines, c), ref1).Some? == Aggregate(Group(lines, c), ref2).Some?;
    assert r1.Keys == r2.Keys;
  }

  /** Recency is negative exactly when the customer has an order dated after the reference;
      app_v2.py does not filter orders by the selected date, so this happens there. */
  lemma NegativeRecencyIffLaterOrder(orders: seq<Order>, items: seq<OrderItem>, reference: Day, c: int)
    requires c in Compute(orders, items, reference)
    ensures Compute(orders, items, reference)[c].recency < 0 <==>
              exists o, i :: JoinedFor(orders, items, c, o, i) && o.invoiceDate.Some? && o.invoiceDate.value > reference
  {
    ComputeRow(orders, items, reference, c);
  }

  // The worked example: one customer (id 7) with an order of 10 on day 1 and an order of
  // 20 on day 5, measured on day 10.
  const ExampleOrders := [Order(1, Some(7), Some(1)), Order(2, Some(7), Some(5))]
  const ExampleItems := [OrderItem(1, Some(10)), OrderItem(2, Some(20))]
  const ExampleLines := [Line(ExampleOrders[0], ExampleItems[0]), Line(ExampleOrders[1], ExampleItems[1])]

  lemma ExampleJoin()
    ensures Join(ExampleOrders, ExampleItems) == ExampleLines
  {
    var orders, items := ExampleOrders, ExampleItems;
    assert LinesOf(orders[0], items) == [ExampleLines[0]] by {
      assert LinesOf(orders[0], items[1..]) == [];
    }
    assert LinesOf(orders[1], items) == [ExampleLines[1]] by {
      assert LinesOf(orders[1], items[1..]) == [ExampleLines[1]];
    }
    assert Join(orders[1..], items) == [ExampleLines[1]];
  }

  lemma ExampleAggregate()
    ensures CustomersOf(ExampleLines) == {7}
    ensures Aggregate(Group(ExampleLines, 7), 10) == Some(CustomerRfm(5, 2, 30))
  {
    var g := Group(ExampleLines, 7);
    assert g == ExampleLines by {
      assert Filter((l: Line) => OfCustomer(7, l), ExampleLines[1..]) == ExampleLines[1..];
    }
    assert OrderIds(g) == {1, 2};
    assert InvoiceDates(g) == [Some(1), Some(5)];
    assert LineTotals(g) == [Some(10), Some(20)];
    assert SqlMax([Some(1), Some(5)]) == Some(5) by {
      assert [Some(1), Some(5)][1..] == [Some(5)];
      assert SqlMax([Some(5)]) == Some(5);
    }
    assert SqlSum([Some(10), Some(20)]) == Some(30) by {
      assert [Some(10), Some(20)][1..] == [Some(20)];
      assert SqlSum([Some(20)]) == Some(20);
    }
  }

  lemma ExampleRow()
    ensures 7 in Compute(ExampleOrders, ExampleItems, 10)
    ensures Compute(ExampleOrders, ExampleItems, 10)[7] == CustomerRfm(5, 2, 30)
  {
    ExampleJoin();
    ExampleAggregate();
    ComputeLookup(ExampleOrders, ExampleItems, 10, 7);
  }

  lemma ExampleOnlyRow()
    ensures Compute(ExampleOrders, ExampleItems, 10).Keys <= {7}
  {
    ExampleJoin();
    ExampleAggregate();
  }

  /** The worked example: recency 5, frequency 2, monetary value 30, and no other row. */
  lemma WorkedExample()
    ensures Compute(ExampleOrders, ExampleItems, 10) == map[7 := CustomerRfm(5, 2, 30)]
  {
    ExampleRow();
    ExampleOnlyRow();
    SingletonMap(Compute(ExampleOrders, ExampleItems, 10), 7, CustomerRfm(5, 2, 30));
  }

  lemma SingletonMap(r: map<int, CustomerRfm>, k: int, v: CustomerRfm)
    requires k in r && r[k] == v && r.Keys <= {k}
    ensures r == map[k := v]
  {
  }
}

=== FILE: rollups.dfy ===
/** The per-day rollup relation `mv_daily_sales` and the queries over it that order and
    window it by date. Dates are day numbers (`Calendar.ToOrdinal`), so `dt - timedelta(days=6)`
    is `dt - 6` and SQL date comparison is integer comparison. */
module Rollups {
  import opened Wrappers
  import opened Seqs
  import opened Calendar

  /** One row of `mv_daily_sales`: revenue is in cents. */
  datatype DailyRollup = DailyRollup(saleDate: Day, orders: int, revenue: int, unitsSold: int)

  predicate SortedByDate(s: seq<DailyRollup>) {
    forall i, j :: 0 <= i < j < |s| ==> s[i].saleDate <= s[j].saleDate
  }

  /** The set of dates that occur in `s`. */
  function DatesOf(s: seq<DailyRollup>): set<Day> {
    if s == [] then {} else {s[0].saleDate} + DatesOf(s[1..])
  }

  /** No two rows share a date, as in `mv_daily_sales`, which is grouped by `sale_date`. */
  predicate UniqueDates(s: seq<DailyRollup>) {
    s == [] || (s[0].saleDate !in DatesOf(s[1..]) && UniqueDates(s[1..]))
  }

  function InsertByDate(x: DailyRollup, s: seq<DailyRollup>): (r: seq<DailyRollup>)
    requires SortedByDate(s)
    ensures SortedByDate(r)
    ensures multiset(r) == multiset(s) + multiset{x}
    ensures |r| == |s| + 1 && (r[0] == x || (|s| > 0 && r[0] == s[0]))
  {
    if s == [] || x.saleDate <= s[0].saleDate then [x] + s
    else
      var t := InsertByDate(x, s[1..]);
      assert s == [s[0]] + s[1..];
      [s[0]] + t
  }

  /** `ORDER BY sale_date`: the same rows, ascending by date. */
  function SortByDate(s: seq<DailyRollup>): (r: seq<DailyRollup>)
    ensures SortedByDate(r)
    ensures multiset(r) == multiset(s)
  {
    if s == [] then []
    else
      assert s == [s[0]] + s[1..];
      InsertByDate(s[0], SortByDate(s[1..]))
  }

  /** `sale_date BETWEEN dt - 6 AND dt`, both ends included. */
  predicate InWindow(dt: Day, r: DailyRollup) {
    dt - 6 <= r.saleDate <= dt
  }

  /** The 7-day trend query: the rows dated `dt - 6` through `dt`, ordered by date. Each
      row of the window occurs as often as in the relation; no other row occurs. */
  function TrendWindow(rel: seq<DailyRollup>, dt: Day): (r: seq<DailyRollup>)
    ensures SortedByDate(r)
    ensures forall x :: multiset(r)[x] == if InWindow(dt, x) then multiset(rel)[x] else 0
  {
    var inWindow := (x: DailyRollup) => InWindow(dt, x);
    FilterMultiset(inWindow, rel);
    SortByDate(Filter(inWindow, rel))
  }

  /** The trend section of app.py: no date selected means no query at all. */
  function TrendSection(rel: seq<DailyRollup>, dt: Option<Day>): (r: Option<seq<DailyRollup>>)
    ensures r.None? <==> dt.None?
    ensures r.Some? ==> SortedByDate(r.value)
    ensures r.Some? ==> forall x :: x in r.value <==> x in rel && InWindow(dt.value, x)
  {
    if dt.None? then None
    else
      var w := TrendWindow(rel, dt.value);
      assert forall x :: x in w <==> x in multiset(w);
      Some(w)
  }

  lemma {:induction false} UniqueDatesCount(s: seq<DailyRollup>)
    requires UniqueDates(s)
    ensures |DatesOf(s)| == |s|
  {
    if s != [] {
      UniqueDatesCount(s[1..]);
    }
  }

  lemma {:induction false} FilterKeepsUniqueDates(p: DailyRollup -> bool, s: seq<DailyRollup>)
    requires UniqueDates(s)
    ensures UniqueDates(Filter(p, s))
    ensures DatesOf(Filter(p, s)) <= DatesOf(s)
  {
    if s != [] {
      FilterKeepsUniqueDates(p, s[1..]);
    }
  }

  lemma {:induction false} DatesWithin(s: seq<DailyRollup>, lo: Day, hi: Day)
    requires forall i :: 0 <= i < |s| ==> lo <= s[i].saleDate <= hi
    ensures forall d :: d in DatesOf(s) ==> lo <= d <= hi
  {
    if s != [] {
      DatesWithin(s[1..], lo, hi);
    }
  }

  /** A set of days inside `[lo, hi]` has at most `hi - lo + 1` members. */
  lemma {:induction false} IntervalBound(a: set<Day>, lo: Day, hi: Day)
    requires lo <= hi + 1
    requires forall d :: d in a ==> lo <= d <= hi
    ensures |a| <= hi - lo + 1
    decreases hi - lo
  {
    if lo <= hi {
      IntervalBound(a - {hi}, lo, hi - 1);
    } else {
      assert forall d :: d !in a;
    }
  }

  /** When dates are unique, the trend window has at most seven rows. */
  lemma TrendWindowAtMostSeven(rel: seq<DailyRollup>, dt: Day)
    requires UniqueDates(rel)
    ensures |TrendWindow(rel, dt)| <= 7
  {
    var inWindow := (x: DailyRollup) => InWindow(dt, x);
    var f := Filter(inWindow, rel);
    FilterKeepsUniqueDates(inWindow, rel);
    UniqueDatesCount(f);
    DatesWithin(f, dt - 6, dt);
    IntervalBound(DatesOf(f), dt - 6, dt);
    assert |TrendWindow(rel, dt)| == |multiset(SortByDate(f))| == |multiset(f)| == |f|;
  }
}

=== FILE: seqs.dfy ===
/** Order-preserving operations on sequences, shared by the row filters of the model. */
module Seqs {

  /** The elements of `s` that satisfy `p`, in their original order
      (a pandas boolean mask, or a SQL `WHERE` over an ordered result). */
  function Filter<T>(p: T -> bool, s: seq<T>): (r: seq<T>)
    ensures |r| <= |s|
    ensures forall i :: 0 <= i < |r| ==> p(r[i])
    ensures forall i :: 0 <= i < |r| ==> r[i] in s
    ensures forall i :: 0 <= i < |s| && p(s[i]) ==> s[i] in r
  {
    if s == [] then []
    else if p(s[0]) then [s[0]] + Filter(p, s[1..])
    else Filter(p, s[1..])
  }

  /** Applies `f` to every element, keeping the order (a column projection). */
  function Project<T, U>(f: T -> U, s: seq<T>): (r: seq<U>)
    ensures |r| == |s|
    ensures forall i :: 0 <= i < |s| ==> r[i] == f(s[i])
  {
    seq(|s|, i requires 0 <= i < |s| => f(s[i]))
  }

  /** `a` can be obtained from `b` by deleting elements (greedy matching decides this). */
  predicate IsSubsequence<T(==)>(a: seq<T>, b: seq<T>)
    decreases |b|
  {
    if a == [] then true
    else if b == [] then false
    else if a[0] == b[0] then IsSubsequence(a[1..], b[1..])
    else IsSubsequence(a, b[1..])
  }

  /** Filtering deletes elements and never reorders the survivors. */
  lemma {:induction false} FilterIsSubsequence<T>(p: T -> bool, s: seq<T>)
    ensures IsSubsequence(Filter(p, s), s)
  {
    if s != [] {
      FilterIsSubsequence(p, s[1..]);
      var f := Filter(p, s[1..]);
      if !p(s[0]) && f != [] {
        assert f[0] in f;
      }
    }
  }

  /** Each element survives as often as it occurs, exactly when it satisfies `p`. */
  lemma {:induction false} FilterMultiset<T>(p: T -> bool, s: seq<T>)
    ensures forall x :: multiset(Filter(p, s))[x] == if p(x) then multiset(s)[x] else 0
  {
    if s != [] {
      FilterMultiset(p, s[1..]);
      assert s == [s[0]] + s[1..];
    }
  }

  /** Filtering a second time with the same predicate changes nothing. */
  lemma {:induction false} FilterIdempotent<T>(p: T -> bool, s: seq<T>)
    ensures Filter(p, Filter(p, s)) == Filter(p, s)
  {
    if s != [] {
      FilterIdempotent(p, s[1..]);
    }
  }

  /** Two filters in a row are one filter by the conjunction. */
  lemma {:induction false} FilterCompose<T>(p: T -> bool, q: T -> bool, pq: T -> bool, s: seq<T>)
    requires forall x :: pq(x) == (p(x) && q(x))
    ensures Filter(q, Filter(p, s)) == Filter(pq, s)
  {
    if s != [] {
      FilterCompose(p, q, pq, s[1..]);
    }
  }

  /** Projection distributes over concatenation. */
  lemma ProjectAppend<T, U>(f: T -> U, a: seq<T>, b: seq<T>)
    ensures Project(f, a + b) == Project(f, a) + Project(f, b)
  {
  }

  /** Filtering distributes over concatenation. */
  lemma {:induction false} FilterAppend<T>(p: T -> bool, a: seq<T>, b: seq<T>)
    ensures Filter(p, a + b) == Filter(p, a) + Filter(p, b)
  {
    if a == [] {
      assert a + b == b;
    } else {
      assert (a + b)[1..] == a[1..] + b;
      FilterAppend(p, a[1..], b);
    }
  }
}

=== FILE: staging.dfy ===
/** The staging loader: the rows of the retail CSV file are cleaned and appended to
    `staging_raw`, whose column names are the CSV's, lower-cased. A NULL cell is `None`. */
module Staging {
  import opened Wrappers
  import opened Seqs

  /** One CSV row. The unit price is a real number of pounds, as read from the file, so a
      fraction of a penny is kept. */
  datatype CsvRow = CsvRow(
    invoiceNo: string,
    stockCode: string,
    description: string,
    quantity: Option<int>,
    invoiceDate: string,
    unitPrice: Option<real>,
    customerId: Option<int>,
    country: string)

  /** `dropna(subset=['CustomerID'])` */
  predicate HasCustomer(r: CsvRow) {
    r.customerId.Some?
  }

  /** `(df.Quantity > 0) & (df.UnitPrice > 0)`; a comparison with NaN is false. */
  predicate PositiveQuantityAndPrice(r: CsvRow) {
    r.quantity.Some? && r.quantity.value > 0 && r.unitPrice.Some? && r.unitPrice.value > 0.0
  }

  /** A row survives the cleaning exactly when it meets all three conditions. */
  predicate Keep(r: CsvRow) {
    HasCustomer(r) && PositiveQuantityAndPrice(r)
  }

  /** The two cleaning steps in the order the loader applies them. */
  function Clean(rows: seq<CsvRow>): (r: seq<CsvRow>)
    ensures forall i :: 0 <= i < |r| ==> r[i].customerId.Some?
    ensures forall i :: 0 <= i < |r| ==> r[i].quantity.Some? && r[i].quantity.value > 0
    ensures forall i :: 0 <= i < |r| ==> r[i].unitPrice.Some? && r[i].unitPrice.value > 0.0
  {
    var withCustomer := Filter(HasCustomer, rows);
    var cleaned := Filter(PositiveQuantityAndPrice, withCustomer);
    assert forall i :: 0 <= i < |cleaned| ==> cleaned[i] in withCustomer;
    cleaned
  }

  /** The two steps are one filter by `Keep`: a row is kept iff all three conditions hold,
      in input order, as often as it occurs. */
  lemma CleanIsKeepFilter(rows: seq<CsvRow>)
    ensures Clean(rows) == Filter(Keep, rows)
    ensures IsSubsequence(Clean(rows), rows)
    ensures forall x :: multiset(Clean(rows))[x] == if Keep(x) then multiset(rows)[x] else 0
  {
    FilterCompose(HasCustomer, PositiveQuantityAndPrice, Keep, rows);
    FilterIsSubsequence(Keep, rows);
    FilterMultiset(Keep, rows);
  }

  /** Cleaning cleaned rows changes nothing. */
  lemma CleanIdempotent(rows: seq<CsvRow>)
    ensures Clean(Clean(rows)) == Clean(rows)
  {
    CleanIsKeepFilter(rows);
    CleanIsKeepFilter(Clean(rows));
    FilterIdempotent(Keep, rows);
  }

  // ---------------------------------------------------------------------------
  // Column names

  predicate IsUpper(c: char) {
    'A' <= c <= 'Z'
  }

  function LowerChar(c: char): char {
    if IsUpper(c) then (c as int + 32) as char else c
  }

  /** `str.lower()` on the ASCII letters. */
  function Lower(s: string): (r: string)
    ensures |r| == |s|
    ensures forall i :: 0 <= i < |s| ==> !IsUpper(r[i])
    ensures forall i :: 0 <= i < |s| && !IsUpper(s[i]) ==> r[i] == s[i]
    ensures forall i :: 0 <= i < |s| && IsUpper(s[i]) ==> r[i] as int == s[i] as int + 32
  {
    seq(|s|, i requires 0 <= i < |s| => LowerChar(s[i]))
  }

  /** `df.columns = df.columns.str.lower()` */
  function LowerColumns(columns: seq<string>): (r: seq<string>)
    ensures |r| == |columns|
    ensures forall i :: 0 <= i < |r| ==> r[i] == Lower(columns[i])
  {
    Project(Lower, columns)
  }

  /** Lower-casing twice is lower-casing once. */
  lemma LowerIdempotent(s: string)
    ensures Lower(Lower(s)) == Lower(s)
  {
  }

  lemma LowerColumnsIdempotent(columns: seq<string>)
    ensures LowerColumns(LowerColumns(columns)) == LowerColumns(columns)
  {
    forall i | 0 <= i < |columns| ensures Lower(Lower(columns[i])) == Lower(columns[i]) {
      LowerIdempotent(columns[i]);
    }
  }

  /** The header of the retail CSV file. */
  const CsvColumns := ["InvoiceNo", "StockCode", "Description", "Quantity", "InvoiceDate",
                       "UnitPrice", "CustomerID", "Country"]

  /** The staging columns are the lower-case names the warehouse scripts read. */
  lemma StagingColumnNames()
    ensures LowerColumns(CsvColumns) == ["invoiceno", "stockcode", "description", "quantity",
                                          "invoicedate", "unitprice", "customerid", "country"]
  {
    assert Lower("InvoiceNo") == "invoiceno";
    assert Lower("StockCode") == "stockcode";
    assert Lower("Description") == "description";
    assert Lower("Quantity") == "quantity";
    assert Lower("InvoiceDate") == "invoicedate";
    assert Lower("UnitPrice") == "unitprice";
    assert Lower("CustomerID") == "customerid";
    assert Lower("Country") == "country";
  }

  // ---------------------------------------------------------------------------
  // The load

  /** The staging table after the append and the count the loader reports. */
  datatype LoadReport = LoadReport(table: seq<CsvRow>, written: nat)

  /** `to_sql(..., if_exists='append')` followed by the report of `len(df)`. */
  function LoadStaging(table: seq<CsvRow>, csv: seq<CsvRow>): (r: LoadReport)
    ensures |r.table| >= |table| && r.table[..|table|] == table
    ensures r.written == |r.table| - |table|
    ensures forall i :: |table| <= i < |r.table| ==> Keep(r.table[i])
  {
    var cleaned := Clean(csv);
    CleanIsKeepFilter(csv);
    LoadReport(table + cleaned, |cleaned|)
  }

  /** The appended rows are exactly the cleaned CSV rows, and the reported count is their
      number. */
  lemma LoadAppendsCleanedRows(table: seq<CsvRow>, csv: seq<CsvRow>)
    ensures var r := LoadStaging(table, csv);
      r.table[|table|..] == Filter(Keep, csv) && r.written == |Filter(Keep, csv)|
  {
    CleanIsKeepFilter(csv);
    var r := LoadStaging(table, csv);
    assert r.table[|table|..] == Clean(csv);
  }
}

=== FILE: wrappers.dfy ===
/** Optional values. `None` stands for SQL NULL, pandas NaN and Python `None`. */
module Wrappers {

  datatype Option<+T> = None | Some(value: T)
}
